=== FILE: README.md ===
# dmenu's drawing library, modelled in Dafny

dmenu draws its menu through a small library, `draw.c` with the records of
`draw.h`. A draw context (`DC`) holds the display connection, a graphics
context, an off-screen canvas pixmap, and one of three text backends:
- an X bitmap font (`XLoadQueryFont`);
- an X font set (`XCreateFontSet`);
- a Pango layout drawn through an Xft drawable.

This project models the library's logic:
- the text fitter of `drawtext`, which shortens a label to the context width and marks the cut with dots;
- font loading and metrics (`initfont`) and measuring (`textnw`, `textw`);
- painting (`drawrect`, `drawtextn`, `drawtext`);
- the context's life cycle (`initdc`, `resizedc`, `freedc`).

Modelling conventions:
- Strings are byte sequences (`seq<bv8>`), and `strlen` is the index of the first NUL.
- The C conventions the code relies on are written out in `CTypes`:
  - `size_t` subtraction wraps modulo 2^64;
  - `/2` on `int` truncates toward zero;
  - an `unsigned int` stored into an `int` field is reinterpreted;
  - an `int` passed as `unsigned int` is reduced modulo 2^32.
- Every X, Xft and Pango object is an abstract handle; a pointer that may be NULL is an `Option`.
- The answers of foreign calls are parameters. `FontProbe` says what the font-loading calls returned. `Native` holds the widths that `XTextWidth`, `XmbTextExtents` and Pango report.
- Each operation appends the requests it makes of the display to the context's `trace`. This lets a contract state "nothing else changes" and the order of requests.
- Which canvases are alive, and which canvas the Xft drawable paints into, are read off the trace by replaying it (`Lifecycle.LiveCanvases`, `Lifecycle.DrawableTarget`).
- A path that prints a diagnostic and exits (`eprintf`) is an `Err(Fatal)` result. So is the crash when `textnw` or `drawtextn` uses a NULL font (`NullFont`).

Files:
- `wrappers.dfy`: `Option` and `Result`.
- `ctypes.dfy`: C integer conventions and `strlen`.
- `textfit.dfy`: the shortening loop and the dots.
- `drawcontext.dfy`: the `DC` and `ColorSet` records of draw.h, the events, backend precedence and `initdc`.
- `fonts.dfy`: `initfont`, `textnw`, `textw`.
- `painting.dfy`: `drawrect`, `drawtextn`, `drawtext`.
- `lifecycle.dfy`: `resizedc`, `freedc`, canvas and drawable accounting.

## Model

| member | source | states |
|---|---|---|
| CTypes.StrLen | draw.c:33 | the length is the number of bytes before the first NUL: no byte before it is NUL, and the byte at it is NUL unless the string ends there |
| CTypes.SizeSub | draw.c:41 | `size_t` subtraction equals the integer difference when it does not underflow, and the difference plus 2^64 when it does |
| CTypes.Half | draw.c:36 | `height/2` on a C int: twice the result is within one of the dividend, rounded toward zero for both signs |
| CTypes.Int32Of | draw.c:222-223 | storing an unsigned width in the int field gives a value in int range that is either the width itself or the width minus 2^32 |
| CTypes.ToUint32 | draw.c:43 | passing an int width as unsigned keeps values in range and adds 2^32 to negative ones |
| TextFit.Candidate | draw.c:33-36 | the first candidate length is the string length, capped at the buffer size BUFSIZ |
| TextFit.LongestFit | draw.c:36-38 | the downward search returns the largest length not above its start that leaves half a line height spare, or nothing when even length 0 is too wide |
| TextFit.Fit | draw.c:31-42 | nothing is drawn exactly when no length up to the candidate fits. Otherwise the buffer has the largest length that fits. An uncut string is copied unchanged. A string cut to at least 3 bytes keeps its prefix and ends in exactly three dots. A string cut to 1 or 2 bytes is a plain prefix with no dot |
| TextFit.ShortenText | draw.c:32-41 | the statement-level loops (downward counter with the early return at 0, memcpy, dot loop from `MAX(mn-3,0)` on size_t) paint exactly when `Fit` does and produce the same buffer. The counter is a natural number: the early return at 0 means the size_t counter never wraps below zero, so the two agree |
| TextFit.FullTextDrawnUnchanged | draw.c:36-41 | a NUL-terminated string that fits the width and the buffer is drawn byte for byte |
| TextFit.NoFitIffEmptyTooWide | draw.c:36-38 | for a width that only grows as bytes are added, drawing is skipped exactly when even the empty prefix is too wide |
| TextFit.FittedIsNulFree | draw.c:33-41 | a drawn buffer holds no NUL byte, so `strlen` of it is the length passed to `drawtextn` |
| TextFit.FitIdempotentForFixedWidth | draw.c:36-41 | with a width that depends only on the byte count, fitting the drawn buffer again yields the same buffer |
| TextFit.FitOfPlainAtFour | draw.c:36-41 | under a measure where dots are wide, "abcdef" at width 4 is drawn as "a..." |
| TextFit.FitOfDottedAtFour | draw.c:36-41 | under the same measure, "a..." at width 4 is drawn as "a" |
| TextFit.FitNotIdempotentInGeneral | draw.c:36-41 | for some measure, fitting the drawn buffer again shortens it further: fitting is not idempotent in general |
| TextFit.LongLabelEndsInDots | draw.c:36-41 | a 28-byte label, with a 6-pixel fixed-width font and line height 10, in a 65-pixel context becomes 10 bytes: its first 7 bytes, then three dots |
| TextFit.EllipsisStart | draw.c:41 | the dot run starts 3 bytes before a cut of at least 3. A shorter cut wraps to `mn-3+2^64`, which is at least the cut, so no byte is dotted |
| TextFit.ClampedEllipsisStart | draw.c:41 | the clamped start of the dot run is never negative, is at most 3 bytes before the cut, and is exactly 3 before it when the cut is at least 3, and is byte 0 when the cut is shorter (`MAX(mn-3, 0)` on signed integers) |
| TextFit.FitClamped | draw.c:39-41 | with the clamped dot start, the same length is chosen as by `Fit`, and every cut buffer's last min(3, length) bytes are dots, the rest being the text's |
| TextFit.ClampedDiffersOnlyOnShortCuts | draw.c:39-41 | the clamped fitter draws the same buffer as the code as written except when a label is cut to 1 or 2 bytes, and such a cut of a label not starting with a dot is drawn differently |
| Painting.DrawTextClamped | draw.c:39-44 | the corrected painter fails exactly when `drawtext` does, paints exactly as `drawtext` unless the label is cut to 1 or 2 bytes, and draws the clamped buffer at the text origin |
| TextFit.TwoByteTruncationDropsEllipsis | draw.c:41 | "abcdef" cut to 2 bytes is drawn as "ab" with no dot as written, and as ".." with the clamp |
| DrawContext.Active | draw.c:239-254 | the backend used for measuring and drawing is one that is loaded, and none loaded outranks it (layout over font set over bitmap font) |
| DrawContext.InitDC | draw.c:136-150 | creating a context fails exactly when the display cannot be opened. Otherwise it holds the display it opened and the GC it created. Its position, size, line height and metrics are zero (calloc). It has no font, layout, canvas or drawable, and has acquired the display and then the GC |
| Lifecycle.FreshContextAccounted | draw.c:142-147 | a fresh context satisfies the canvas accounting the resize and teardown lemmas assume: no canvas alive, no drawable bound. Tearing it down releases exactly the display and GC that `initdc` acquired |
| Fonts.FoldMax | draw.c:170-175 | each of ascent, descent and width is the maximum over the starting value and every font of the set, and is attained by one of them |
| Fonts.InitFont | draw.c:152-209 | loading a font is fatal exactly when neither X backend loads and the Pango branch fails. The metrics are a bitmap font's own, the maximum over a font set's fonts and the prior values, or Pango's. The height is ascent plus descent. Nothing else in the context changes, and the trace only grows |
| Fonts.InitFontBackendPriority | draw.c:163-206 | from a context with no font, exactly the first backend that loads is set (bitmap font, then font set, then layout), so at most one is set. The missing-charset list is freed exactly when the bitmap font failed and the font set returned one |
| Fonts.FreshFontSetHeight | draw.c:169-175 | a non-empty font set loaded into a fresh context, whose tallest ascent and deepest descent are both non-negative, gets a line height of that ascent plus that descent. With a negative extreme the zero the fold starts from wins instead |
| Fonts.TextNWUsesPreferredBackend | draw.c:237-255 | `textnw` measures the first `len` bytes with the loaded backend of highest precedence; the fitter's measure is the same width |
| Fonts.TextNW | draw.c:237-255 | `textnw` fails exactly when no font is set, the NULL font of draw.c:254 |
| Fonts.TextW | draw.c:257-260 | `textw` fails exactly when no font is set |
| Fonts.InitFontCanLeaveNoFont | draw.c:163-204 | from a context with no font, `initfont` returns normally with no backend set exactly when neither X font loads in a build without Pango |
| Fonts.InitFontStrict | draw.c:163-204 | a stricter alternative to the silent degrade: `initfont` made fatal when no font loads, and otherwise equal to `initfont`. Every context it returns has a font |
| Fonts.MeasureDegraded | draw.c:237-255 | the measure of a context without a font is zero for every string; with a font it is the active backend's measure |
| Fonts.TextNWDegraded | draw.c:237-255 | `textnw` under the silent degrade (a context with no font measures every string as 0 wide and draws no text): equals `textnw`'s width when a font is set, and 0 when none is |
| Fonts.TextWDegraded | draw.c:257-260 | `textw` under the silent degrade (a context with no font measures every string as 0 wide and draws no text): equals `textw` when a font is set, and exactly the line height when none is |
| Fonts.TextWAddsLineHeight | draw.c:257-260 | with a font, `textw` is the width of the bytes before the terminator plus one line height. Bytes after the terminator play no part, with or without a font |
| Painting.DrawRect | draw.c:21-28 | sets the colour and then fills or outlines at the context origin plus (x, y); nothing but the trace changes. A fill covers the w by h block. An outline covers (w-1)+1 by (h-1)+1 with each `w-1`, `h-1` taken mod 2^32, so a side of 0 wraps to 2^32-1 and a non-empty outline covers exactly the w by h block |
| Painting.DrawTextN | draw.c:47-70 | fatal exactly when no font is set (the NULL `xfont` at draw.c:67) or a layout exists without an Xft drawable. Otherwise it sets the foreground first; it makes three requests exactly when the active backend is the bitmap font, whose font it sets second, and two otherwise; and it ends by drawing exactly the first n bytes through the active backend, at half a line height right of the origin and one pixel below the ascent (a Pango line render in Pango units with the Xft colour for a layout, an X string draw in pixels for a font set or bitmap font). Nothing but the trace changes |
| Painting.DrawText | draw.c:30-45 | fails with no font set, since the first `textnw` uses the NULL font. Otherwise it makes no request at all when nothing fits, and else is fatal exactly when `drawtextn` is. Nothing but the trace changes. The bytes drawn are `TextFit.Fit`'s, as written |
| Painting.DrawTextClearsThenDraws | draw.c:43-50 | when text is drawn, the whole context is first filled with the background, then the foreground is set, the bitmap font is set next exactly when it is the active backend, and the last request draws the fitted bytes at the text origin. That is four or five requests in all; a Pango render of the last request uses the Xft colour. For a context of non-negative size below 2^32, the fill covers exactly the context's box |
| Painting.DrawTextNDegraded | draw.c:47-70 | `drawtextn` under the silent degrade (a context with no font measures every string as 0 wide and draws no text): equals `drawtextn` when a font is set; with none it succeeds, changes nothing but the trace, and puts no text on the canvas. It never fails for want of a font |
| Painting.DrawTextDegraded | draw.c:30-45 | `drawtext` under the silent degrade (a context with no font measures every string as 0 wide and draws no text): equals `drawtext` when a font is set; with none it succeeds, changes nothing but the trace, and puts no text on the canvas. Its only failure is a layout without an Xft drawable |
| Painting.UnloadableFontReachesNullFont | draw.c:163-204 | a fresh context given a font no X backend loads, in a build without Pango, gets no font and no error; `textw` and `drawtext` then hit the NULL font. Under the silent degrade `textw` is 0 and `drawtext` succeeds, and the strict `initfont` fails instead |
| Lifecycle.ResizeDC | draw.c:216-235 | the new canvas replaces the old, and the width and height are the arguments as ints. A drawable is kept if present, and is created exactly when a layout exists and none is present; failing to create it is fatal. Nothing else changes |
| Lifecycle.ResizeCanvasStep | draw.c:219-225 | freeing the old canvas and allocating the new one leaves exactly the new canvas alive |
| Lifecycle.ResizeKeepsOneCanvas | draw.c:219-233 | after any resize exactly one canvas is alive, the context's own, even when the display reuses the freed handle |
| Lifecycle.FirstResizeCreatesDrawable | draw.c:219-233 | the first resize of a context with a layout and no drawable creates the drawable on the new canvas, after freeing the old canvas and allocating the new one |
| Lifecycle.LaterResizeLeavesTarget | draw.c:219-233 | a resize of a context that already has a drawable only frees and allocates a canvas; the drawable and the canvas it targets stay the same |
| Lifecycle.SecondResizeKeepsFirstBinding | draw.c:219-233 | two resizes with a layout: the drawable is created once, on the first canvas. The second resize only frees and allocates. The drawable still targets the first canvas |
| Lifecycle.ResizeLeavesDrawableOnFreedCanvas | draw.c:219-233 | as written, after a second resize onto a different pixmap the drawable is bound to a canvas that is no longer alive |
| Lifecycle.ResizeDCRebinding | draw.c:216-235 | the corrected resize fails exactly when `resizedc` does and differs from it only in the trace |
| Lifecycle.RebindingKeepsDrawableOnCanvas | draw.c:216-235 | with rebinding, an existing drawable always paints into the current canvas, and exactly one canvas stays alive |
| Lifecycle.TeardownReleasesOwned | draw.c:87-104 | the teardown requests release exactly the resources the context holds |
| Lifecycle.TeardownOrdered | draw.c:87-104 | the teardown requests come in strict dependency order |
| Lifecycle.FreeDC | draw.c:87-105 | teardown releases exactly the held resources, each in dependency order, ending with the display connection. The drawable is destroyed, even when NULL, and the shaping library shut down, exactly when a layout exists. No drawable but the context's own is ever destroyed |
| Lifecycle.TeardownDestroysOwnDrawable | draw.c:89-103 | every teardown request other than the shaping segment's is a release, so the only drawable teardown destroys is the one the context holds |
| Lifecycle.FreeDCLeavesNoCanvas | draw.c:100-101 | after teardown of a context whose canvas accounting holds, no canvas is alive |
| Lifecycle.DrawTextKeepsCanvasAccounting | draw.c:30-70 | drawing text neither allocates nor frees a canvas, so the live canvases stay exactly the context's own |
| Lifecycle.InitFontKeepsCanvasAccounting | draw.c:152-209 | loading a font neither allocates nor frees a canvas |

## Left out

- `initcolor` and `getcolor` (draw.c:107-134): colour allocation is a display call. A `ColorSet` is taken as given.
- `mapdc` (draw.c:211-214): a single `XCopyArea` with nothing to decide.
- `eprintf` (draw.c:72-85): message formatting, `perror` and `exit` are I/O. Every call site is an `Err` naming the condition.
- `freecol` (draw.h:39): declared but not defined in draw.c.
- `initdc`: the locale check prints a warning and carries on, so it is not modelled. A failed `calloc` is not modelled either. `XSetLineAttributes` sets no state the rest of the library reads.
- Fonts.InitFont: the Pango metrics are taken already converted to pixels. The `PANGO_PIXELS` rounding and the freeing of the Pango metrics and description objects are not modelled.
- Fonts.TextNWUsesPreferredBackend: `textnw` through a layout also replaces the layout's text; that side effect is not modelled because `drawtextn` sets the text again before rendering.
- CTypes.Int32Of: the signed overflow of `dc->x + x` and similar int sums is not modelled; those sums are unbounded integers.
- TextFit.Fit: `BUFSIZ` is fixed at 8192 and `size_t` at 64 bits. The width function is arbitrary, and re-fitting is idempotent only for fixed-width widths (`TextFit.FitIdempotentForFixedWidth`, `TextFit.FitNotIdempotentInGeneral`). So the model follows the code, not the broader claim that fitting is idempotent.
- TextFit.NoFitIffEmptyTooWide: stated only for widths that grow with the byte count. For other widths, drawing is skipped exactly when no candidate length fits (`TextFit.Fit`).
- Painting.DrawTextN: a NULL font dereference in C is a crash, not a diagnostic. It is modelled as the failure `NullFont`, and the requests before the crash are not kept.
- Whether the program is built with or without Pango is an input (`ShapedProbe.NotCompiled`), not two separate models.

## Findings

| source | as written | input that shows it | evidently intended | confidence | as-written member | corrected member |
|---|---|---|---|---|---|---|
| draw.c:41 | `MAX(mn-3, 0)` on a `size_t`: `mn-3` wraps to a huge value when `mn < 3`, so the dot loop never runs | "abcdef" at one pixel per byte, context width 2, line height 0: two bytes fit and "ab" is drawn with no dot | mark every cut label with dots, starting at byte 0 when fewer than 3 bytes fit (".." here) | high; not executed | TextFit.TwoByteTruncationDropsEllipsis | TextFit.FitClamped |
| draw.c:163-204 | with Pango compiled out, the last `else` branch of `initfont` is empty. A font name neither X backend loads leaves no font set and no error | a fresh context, no bitmap font, no font set, no Pango: `textw` and `drawtext` then pass the NULL `xfont` to `XTextWidth` (draw.c:254) and `drawtextn` reads `xfont->fid` (draw.c:67) | degrade silently. The X branches of `initfont` never call `eprintf`, unlike every Pango failure at draw.c:179-193, and with no font the metrics stay 0 (draw.c:206). So a context with no font measures every string as 0 wide, `textw` is the line height, and `drawtext` clears the context and draws no text; nothing crashes | medium; not executed | Painting.UnloadableFontReachesNullFont | Painting.DrawTextDegraded |
| draw.c:227-233 | the Xft drawable is created on the first canvas only; later resizes free that canvas and never rebind the drawable | a layout font, resize onto pixmap p1, then resize onto pixmap p2 != p1: the drawable still targets p1, which was freed | move the drawable onto the new canvas (`XftDrawChange`) whenever one exists | medium; not executed | Lifecycle.ResizeLeavesDrawableOnFreedCanvas | Lifecycle.ResizeDCRebinding |

`Painting.DrawText`, `TextFit.Fit` and `TextFit.ShortenText` keep the code as written. `Painting.DrawTextClamped` is the painter with the corrected dot run, and `TextFit.ClampedDiffersOnlyOnShortCuts` bounds where the two differ. `Painting.DrawTextDegraded`, `Painting.DrawTextNDegraded`, `Fonts.TextWDegraded` and `Fonts.TextNWDegraded` give the silent degrade for a context without a font: it measures every string as 0 wide and draws no text. They agree with the source whenever a font is set, never fail for want of one, and put no text on the canvas without one. `Fonts.InitFontStrict` is a stricter alternative that makes the missing font fatal at load time instead. `Lifecycle.RebindingKeepsDrawableOnCanvas` proves the intended property of the corrected resize.

=== FILE: ctypes.dfy ===
/** The C integer conventions draw.c relies on, written out explicitly. */
module CTypes {

  const UINT32_MODULUS: int := 0x1_0000_0000
  const INT32_LIMIT: int := 0x8000_0000
  /** `size_t` is 64 bits wide on the platforms the program targets. */
  const SIZE_MODULUS: int := 0x1_0000_0000_0000_0000

  type uint16 = x: int | 0 <= x < 0x1_0000
  type uint32 = x: int | 0 <= x < UINT32_MODULUS
  type size_t = x: int | 0 <= x < SIZE_MODULUS

  /** Subtraction on `size_t`: wraps around modulo 2^64. */
  function SizeSub(a: size_t, b: size_t): (r: size_t)
    ensures a >= b ==> r == a - b
    ensures a < b ==> r == a - b + SIZE_MODULUS
  {
    (a - b) % SIZE_MODULUS
  }

  /** `a / 2` on a C `int`: the quotient is truncated toward zero. */
  function Half(a: int): (r: int)
    ensures a >= 0 ==> 0 <= r && r + r <= a < r + r + 2
    ensures a < 0 ==> r <= 0 && r + r - 2 < a <= r + r
  {
    if a >= 0 then a / 2 else -((-a) / 2)
  }

  /** An `unsigned int` stored into an `int` field: two's complement reinterpretation. */
  function Int32Of(u: uint32): (r: int)
    ensures -INT32_LIMIT <= r < INT32_LIMIT
    ensures r == u || r == u - UINT32_MODULUS
  {
    if u < INT32_LIMIT then u else u - UINT32_MODULUS
  }

  /** An `int` passed where an `unsigned int` is expected: reduced modulo 2^32. */
  function ToUint32(i: int): (r: uint32)
    ensures 0 <= i < UINT32_MODULUS ==> r == i
    ensures -UINT32_MODULUS <= i < 0 ==> r == i + UINT32_MODULUS
  {
    i % UINT32_MODULUS
  }

  /**
   * `strlen`: the number of bytes before the first NUL. A sequence holding no
   * NUL byte stands for a string whose terminator follows its last byte.
   */
  function StrLen(s: seq<bv8>): (n: nat)
    ensures n <= |s|
    ensures forall i :: 0 <= i < n ==> s[i] != 0
    ensures n < |s| ==> s[n] == 0
  {
    if |s| == 0 || s[0] == 0 then 0 else 1 + StrLen(s[1..])
  }

  /** No NUL byte among the bytes of `s`. */
  predicate NulFree(s: seq<bv8>) {
    forall i :: 0 <= i < |s| ==> s[i] != 0
  }
}

=== FILE: drawcontext.dfy ===
/**
 * The records of draw.h and the observable effects of draw.c. Every X11, Xft
 * and Pango object is an abstract handle; a handle that may be NULL is an
 * `Option`. Each operation appends what it asks of the display to `trace`.
 */
module DrawContext {
  import opened Wrappers
  import opened CTypes

  /** An X resource id or a pointer to a foreign object. */
  type Handle = nat
  /** An allocated colour (`unsigned long` pixel value). */
  type Pixel = nat

  /** The three interchangeable text backends. */
  datatype Backend =
    | BitmapFont(font: Handle)    // an `XFontStruct` from `XLoadQueryFont`
    | FontSetFont(fontSet: Handle)// an `XFontSet` from `XCreateFontSet`
    | ShapedLayout(layout: Handle) // a `PangoLayout`

  /** The `font` record nested in `DC`. */
  datatype FontFields = FontFields(
    ascent: int, descent: int, height: int, width: int,
    fontSet: Option<Handle>, xfont: Option<Handle>)

  /** Foreign resources whose acquisition and release the trace records. */
  datatype Resource =
    | DisplayConnection(id: Handle)
    | GraphicsContext(id: Handle)
    | CanvasPixmap(id: Handle)
    | LayoutObject(id: Handle)
    | FontSetObject(id: Handle)
    | BitmapFontObject(id: Handle)
    | MissingCharsetList

  datatype Event =
    | Acquire(res: Resource)
    | Release(res: Resource)
    | CreateDrawable(drawable: Handle, canvas: Handle)    // `XftDrawCreate` on a canvas
    | RebindDrawable(drawable: Handle, canvas: Handle)    // `XftDrawChange`
    | DestroyDrawable(target: Option<Handle>)             // `XftDrawDestroy`, NULL included
    | ShutdownShaping                                     // `pango_xft_shutdown_display`
    | SetForeground(pixel: Pixel)
    | SetFont(font: Handle)
    | FillRectangle(x: int, y: int, w: uint32, h: uint32)
    | OutlineRectangle(x: int, y: int, w: uint32, h: uint32)
    | DrawString(via: Backend, x: int, y: int, bytes: seq<bv8>)        // `XDrawString`, `XmbDrawString`
    | RenderLine(via: Backend, color: Pixel, xUnits: int, yUnits: int, bytes: seq<bv8>) // `pango_xft_render_layout_line`

  /** The draw context `DC`. */
  datatype DC = DC(
    x: int, y: int, w: int, h: int, invert: bool,
    dpy: Handle, gc: Handle, canvas: Option<Handle>,
    xftdraw: Option<Handle>, layout: Option<Handle>,
    font: FontFields,
    trace: seq<Event>)

  /** `ColorSet`: foreground, its Xft form, and background. */
  datatype ColorSet = ColorSet(fg: Pixel, fgXft: Pixel, bg: Pixel)

  /** The conditions on which the source prints a diagnostic and exits. */
  datatype Fatal =
    | CannotOpenDisplay
    | NoShapingContext
    | NoShapingLayout
    | NoFontDescription
    | NoFontMetrics
    | NoXftDrawable
    | CannotCreateXftDrawable
    | NullFont          // no font handle is set, and `textnw` or `drawtextn` passes or dereferences the NULL `xfont`
    | CannotLoadFont    // no font loads, in the strict variant `Fonts.InitFontStrict`

  /** The text backends whose handle is set in `dc`. */
  function LoadedBackends(dc: DC): set<Backend> {
    (if dc.layout.Some? then {ShapedLayout(dc.layout.value)} else {})
    + (if dc.font.fontSet.Some? then {FontSetFont(dc.font.fontSet.value)} else {})
    + (if dc.font.xfont.Some? then {BitmapFont(dc.font.xfont.value)} else {})
  }

  predicate HasFont(dc: DC) {
    dc.layout.Some? || dc.font.fontSet.Some? || dc.font.xfont.Some?
  }

  /** Precedence of a backend when several are set: lower is consulted first. */
  function Precedence(b: Backend): nat {
    match b
    case ShapedLayout(_) => 0
    case FontSetFont(_) => 1
    case BitmapFont(_) => 2
  }

  /** The backend `textnw` and `drawtextn` use: the layout, else the font set, else the bitmap font. */
  function Active(dc: DC): (b: Backend)
    requires HasFont(dc)
    ensures b in LoadedBackends(dc)
    ensures forall c :: c in LoadedBackends(dc) ==> Precedence(b) <= Precedence(c)
  {
    if dc.layout.Some? then ShapedLayout(dc.layout.value)
    else if dc.font.fontSet.Some? then FontSetFont(dc.font.fontSet.value)
    else BitmapFont(dc.font.xfont.value)
  }

  /**
   * `initdc` after its locale check: a zero-filled context holding the display
   * connection and a graphics context, or the fatal error when the display
   * cannot be opened. `gc` is what `XCreateGC` returns.
   */
  function InitDC(display: Option<Handle>, gc: Handle): (r: Result<DC, Fatal>)
    ensures r.Err? <==> display.None?
    ensures r.Ok? ==> r.value.dpy == display.value && r.value.gc == gc
    ensures r.Ok? ==> r.value.x == 0 && r.value.y == 0 && r.value.w == 0 && r.value.h == 0 && !r.value.invert
    ensures r.Ok? ==> r.value.font.height == 0 && r.value.layout.None?
    ensures r.Ok? ==> LoadedBackends(r.value) == {} && r.value.canvas.None? && r.value.xftdraw.None?
    ensures r.Ok? ==> r.value.font.ascent == 0 && r.value.font.descent == 0 && r.value.font.width == 0
    ensures r.Ok? ==> r.value.trace == [Acquire(DisplayConnection(display.value)), Acquire(GraphicsContext(gc))]
  {
    match display
    case None => Err(CannotOpenDisplay)
    case Some(d) =>
      Ok(DC(0, 0, 0, 0, false, d, gc, None, None, None,
            FontFields(0, 0, 0, 0, None, None),
            [Acquire(DisplayConnection(d)), Acquire(GraphicsContext(gc))]))
  }
}

=== FILE: fonts.dfy ===
/**
 * Font loading and text measurement: `initfont` picks one of three backends
 * by fixed priority and records its metrics; `textnw` and `textw` measure
 * through whichever backend is active.
 */
module Fonts {
  import opened Wrappers
  import opened CTypes
  import opened DrawContext
  import TextFit

  /** Ascent, descent and widest glyph of one font. */
  datatype Metrics = Metrics(ascent: int, descent: int, width: int)

  datatype Field = Ascent | Descent | Width

  function Get(m: Metrics, f: Field): int {
    match f
    case Ascent => m.ascent
    case Descent => m.descent
    case Width => m.width
  }

  /** `MAX(a, b)` */
  function Max(a: int, b: int): int {
    if a > b then a else b
  }

  /** `v` is the largest value of field `f` over `seed` and all of `fonts`. */
  ghost predicate IsMaximum(v: int, seed: Metrics, fonts: seq<Metrics>, f: Field) {
    && v >= Get(seed, f)
    && (forall i :: 0 <= i < |fonts| ==> v >= Get(fonts[i], f))
    && (v == Get(seed, f) || exists i :: 0 <= i < |fonts| && v == Get(fonts[i], f))
  }

  /** The loop over the fonts of a font set, each field folded with `MAX` from `seed`. */
  function FoldMax(seed: Metrics, fonts: seq<Metrics>): (r: Metrics)
    ensures IsMaximum(r.ascent, seed, fonts, Ascent)
    ensures IsMaximum(r.descent, seed, fonts, Descent)
    ensures IsMaximum(r.width, seed, fonts, Width)
    decreases |fonts|
  {
    if |fonts| == 0 then seed
    else
      var prior := FoldMax(seed, fonts[..|fonts| - 1]);
      var last := fonts[|fonts| - 1];
      Metrics(Max(prior.ascent, last.ascent), Max(prior.descent, last.descent), Max(prior.width, last.width))
  }

  /** What `XLoadQueryFont` returned on success. */
  datatype BitmapFontInfo = BitmapFontInfo(handle: Handle, metrics: Metrics)
  /** What `XCreateFontSet` and `XFontsOfFontSet` returned on success. */
  datatype FontSetInfo = FontSetInfo(handle: Handle, fonts: seq<Metrics>)

  /** How far the Pango branch gets; `NotCompiled` when the program is built without Pango. */
  datatype ShapedProbe =
    | NotCompiled
    | NoContext
    | NoLayout
    | NoDescription
    | NoMetrics
    | ShapedReady(layout: Handle, metrics: Metrics)
  {
    predicate Fails() {
      NoContext? || NoLayout? || NoDescription? || NoMetrics?
    }
  }

  /** The answers the display gives to the calls `initfont` makes. */
  datatype FontProbe = FontProbe(
    bitmap: Option<BitmapFontInfo>,
    fontSet: Option<FontSetInfo>,
    missing: bool,            // `XCreateFontSet` handed back a missing-charset list
    shaped: ShapedProbe)

  /** Store metrics and recompute `height` as `ascent + descent`. */
  function WithMetrics(dc: DC, m: Metrics): DC {
    dc.(font := dc.font.(ascent := m.ascent, descent := m.descent, width := m.width,
                         height := m.ascent + m.descent))
  }

  /** The metric fields of the context's font record. */
  function PriorMetrics(dc: DC): Metrics {
    Metrics(dc.font.ascent, dc.font.descent, dc.font.width)
  }

  /**
   * `initfont`: fatal only when neither X backend loads and the Pango branch
   * fails; otherwise the recorded metrics are a bitmap font's own, the maximum
   * over a font set's fonts and the prior field values, Pango's, or the prior
   * values untouched when nothing loads, and the height is always their
   * ascent plus descent.
   */
  function InitFont(dc: DC, probe: FontProbe): (r: Result<DC, Fatal>)
    ensures r.Err? <==> probe.bitmap.None? && probe.fontSet.None? && probe.shaped.Fails()
    ensures r.Ok? ==> r.value.font.height == r.value.font.ascent + r.value.font.descent
    ensures r.Ok? && probe.bitmap.Some? ==> PriorMetrics(r.value) == probe.bitmap.value.metrics
    ensures r.Ok? && probe.bitmap.None? && probe.fontSet.Some? ==>
      var fonts := probe.fontSet.value.fonts;
      && IsMaximum(r.value.font.ascent, PriorMetrics(dc), fonts, Ascent)
      && IsMaximum(r.value.font.descent, PriorMetrics(dc), fonts, Descent)
      && IsMaximum(r.value.font.width, PriorMetrics(dc), fonts, Width)
    ensures r.Ok? && probe.bitmap.None? && probe.fontSet.None? && probe.shaped.ShapedReady? ==>
      PriorMetrics(r.value) == probe.shaped.metrics
    ensures r.Ok? && probe.bitmap.None? && probe.fontSet.None? && probe.shaped.NotCompiled? ==>
      PriorMetrics(r.value) == PriorMetrics(dc)
    ensures r.Ok? ==> r.value.(font := dc.font, layout := dc.layout, trace := dc.trace) == dc
    ensures r.Ok? ==> dc.trace <= r.value.trace
  {
    match probe.bitmap
    case Some(b) =>
      var loaded := dc.(font := dc.font.(xfont := Some(b.handle)),
                        trace := dc.trace + [Acquire(BitmapFontObject(b.handle))]);
      Ok(WithMetrics(loaded, b.metrics))
    case None =>
      var noFont := dc.(font := dc.font.(xfont := None));
      var cleanup := if probe.missing then [Release(MissingCharsetList)] else [];
      match probe.fontSet
      case Some(fs) =>
        var loaded := noFont.(font := noFont.font.(fontSet := Some(fs.handle)),
                              trace := dc.trace + [Acquire(FontSetObject(fs.handle))] + cleanup);
        Ok(WithMetrics(loaded, FoldMax(PriorMetrics(dc), fs.fonts)))
      case None =>
        var noSet := noFont.(font := noFont.font.(fontSet := None));
        match probe.shaped
        case NotCompiled => Ok(WithMetrics(noSet.(trace := dc.trace + cleanup), PriorMetrics(dc)))
        case NoContext => Err(NoShapingContext)
        case NoLayout => Err(NoShapingLayout)
        case NoDescription => Err(NoFontDescription)
        case NoMetrics => Err(NoFontMetrics)
        case ShapedReady(l, m) =>
          var loaded := noSet.(layout := Some(l), trace := dc.trace + [Acquire(LayoutObject(l))] + cleanup);
          Ok(WithMetrics(loaded, m))
  }

  /** The backend `initfont` settles on: the first probe that succeeded. */
  function Chosen(probe: FontProbe): set<Backend> {
    if probe.bitmap.Some? then {BitmapFont(probe.bitmap.value.handle)}
    else if probe.fontSet.Some? then {FontSetFont(probe.fontSet.value.handle)}
    else if probe.shaped.ShapedReady? then {ShapedLayout(probe.shaped.layout)}
    else {}
  }

  /**
   * From a context with no font, `initfont` sets exactly the handle of the
   * first backend that loads (bitmap font, then font set, then layout), so at
   * most one backend is ever set; the missing-charset list is freed exactly
   * when the font set was attempted and returned one.
   */
  lemma InitFontBackendPriority(dc: DC, probe: FontProbe)
    requires LoadedBackends(dc) == {}
    requires InitFont(dc, probe).Ok?
    ensures LoadedBackends(InitFont(dc, probe).value) == Chosen(probe)
    ensures |LoadedBackends(InitFont(dc, probe).value)| <= 1
    ensures var added := InitFont(dc, probe).value.trace[|dc.trace|..];
      Release(MissingCharsetList) in added <==> probe.bitmap.None? && probe.missing
  {
    var r := InitFont(dc, probe).value;
    assert dc.layout.None? && dc.font.fontSet.None? && dc.font.xfont.None?;
    var added := r.trace[|dc.trace|..];
    var cleanup := if probe.missing then [Release(MissingCharsetList)] else [];
    if probe.bitmap.Some? {
      assert added == [Acquire(BitmapFontObject(probe.bitmap.value.handle))];
    } else if probe.fontSet.Some? {
      assert added == [Acquire(FontSetObject(probe.fontSet.value.handle))] + cleanup;
    } else if probe.shaped.ShapedReady? {
      assert added == [Acquire(LayoutObject(probe.shaped.layout))] + cleanup;
    } else {
      assert added == cleanup;
    }
  }

  /**
   * A font set of fonts with non-negative metrics, loaded into a fresh
   * context, gets a line height of the tallest ascent plus the deepest descent
   * among its fonts.
   */
  lemma FreshFontSetHeight(display: Handle, gc: Handle, fs: FontSetInfo, missing: bool, shaped: ShapedProbe, i: nat, j: nat)
    requires 0 <= i < |fs.fonts| && 0 <= j < |fs.fonts|
    requires forall k :: 0 <= k < |fs.fonts| ==> fs.fonts[k].ascent <= fs.fonts[i].ascent
    requires forall k :: 0 <= k < |fs.fonts| ==> fs.fonts[k].descent <= fs.fonts[j].descent
    requires fs.fonts[i].ascent >= 0 && fs.fonts[j].descent >= 0
    ensures var dc := InitDC(Some(display), gc).value;
      var r := InitFont(dc, FontProbe(None, Some(fs), missing, shaped));
      r.Ok? && r.value.font.height == fs.fonts[i].ascent + fs.fonts[j].descent
  {
    var dc := InitDC(Some(display), gc).value;
    var r := InitFont(dc, FontProbe(None, Some(fs), missing, shaped)).value;
    assert r.font.ascent == fs.fonts[i].ascent;
    assert r.font.descent == fs.fonts[j].descent;
  }

  /** Foreign measuring calls, one per backend. */
  datatype Native = Native(
    textWidth: (Handle, seq<bv8>) -> int,          // `XTextWidth`
    extentsWidth: (Handle, seq<bv8>) -> uint16,    // width of the rectangle `XmbTextExtents` fills in
    layoutWidth: (Handle, seq<bv8>) -> int)        // `pango_layout_set_text`, then `pango_layout_get_pixel_size`

  /** The width one backend reports for exactly these bytes. */
  function Measure(native: Native, b: Backend, bytes: seq<bv8>): int {
    match b
    case BitmapFont(f) => native.textWidth(f, bytes)
    case FontSetFont(s) => native.extentsWidth(s, bytes)
    case ShapedLayout(l) => native.layoutWidth(l, bytes)
  }

  /**
   * `textnw`: the width of the first `len` bytes of `text`. With no font set
   * the source hands a NULL font to `XTextWidth`; that crash is `NullFont`.
   */
  function TextNW(native: Native, dc: DC, text: seq<bv8>, len: nat): (r: Result<int, Fatal>)
    requires len <= |text|
    ensures r.Err? <==> !HasFont(dc)
    ensures r.Err? ==> r.error == NullFont
  {
    if HasFont(dc) then Ok(Measure(native, Active(dc), text[..len])) else Err(NullFont)
  }

  /** `textw`: the width of the whole string plus one line height of margin. */
  function TextW(native: Native, dc: DC, text: seq<bv8>): (r: Result<int, Fatal>)
    ensures r.Err? <==> !HasFont(dc)
  {
    match TextNW(native, dc, text, StrLen(text))
    case Err(e) => Err(e)
    case Ok(width) => Ok(width + dc.font.height)
  }

  /** `textnw` as the measure the text fitter uses, for a context with a font. */
  function MeasureOf(native: Native, dc: DC): TextFit.Measure
    requires HasFont(dc)
  {
    (s: seq<bv8>) => Measure(native, Active(dc), s)
  }

  /**
   * `textnw` measures with the set backend of highest precedence (layout over
   * font set over bitmap font); in particular with the only one set.
   */
  lemma TextNWUsesPreferredBackend(native: Native, dc: DC, b: Backend, text: seq<bv8>, len: nat)
    requires b in LoadedBackends(dc)
    requires forall c :: c in LoadedBackends(dc) ==> Precedence(b) <= Precedence(c)
    requires len <= |text|
    ensures TextNW(native, dc, text, len) == Ok(Measure(native, b, text[..len]))
    ensures MeasureOf(native, dc)(text[..len]) == Measure(native, b, text[..len])
  {
    assert HasFont(dc);
    var a := Active(dc);
    assert Precedence(a) == Precedence(b);
  }

  /**
   * `textw` measures the bytes before the terminator with the active backend
   * and adds the line height; bytes after the terminator play no part.
   */
  lemma TextWAddsLineHeight(native: Native, dc: DC, visible: seq<bv8>, rest: seq<bv8>)
    requires NulFree(visible)
    ensures HasFont(dc) ==>
      TextW(native, dc, visible + [0] + rest) == Ok(Measure(native, Active(dc), visible) + dc.font.height)
    ensures TextW(native, dc, visible) == TextW(native, dc, visible + [0] + rest)
  {
    var s := visible + [0] + rest;
    assert StrLen(s) == |visible| by {
      assert s[|visible|] == 0;
      assert forall i :: 0 <= i < |visible| ==> s[i] == visible[i];
    }
    assert s[..|visible|] == visible;
    assert visible[..|visible|] == visible;
  }

  /**
   * From a context with no font, `initfont` returns normally yet leaves no
   * backend set exactly when neither X font loads in a build without Pango.
   */
  lemma InitFontCanLeaveNoFont(dc: DC, probe: FontProbe)
    requires LoadedBackends(dc) == {}
    ensures (InitFont(dc, probe).Ok? && !HasFont(InitFont(dc, probe).value))
            <==> probe.bitmap.None? && probe.fontSet.None? && probe.shaped.NotCompiled?
  {
    assert dc.layout.None? && dc.font.fontSet.None? && dc.font.xfont.None?;
  }

  /**
   * The measure under the silent degrade, for a context in which no font
   * loaded: every string is zero pixels wide. With a font it is the active backend's
   * measure.
   */
  function MeasureDegraded(native: Native, dc: DC): (m: TextFit.Measure)
    ensures HasFont(dc) ==> m == MeasureOf(native, dc)
    ensures !HasFont(dc) ==> forall s :: m(s) == 0
  {
    if HasFont(dc) then MeasureOf(native, dc) else (s: seq<bv8>) => 0
  }

  /**
   * `textnw` under the silent degrade: the first `len` bytes measure as
   * `textnw` measures them when a font is set, and as zero when none is,
   * where the source passes the NULL `xfont` on.
   */
  function TextNWDegraded(native: Native, dc: DC, text: seq<bv8>, len: nat): (r: int)
    requires len <= |text|
    ensures HasFont(dc) ==> Ok(r) == TextNW(native, dc, text, len)
    ensures !HasFont(dc) ==> r == 0
  {
    MeasureDegraded(native, dc)(text[..len])
  }

  /**
   * `textw` under the silent degrade: as `textw` when a font is set, and
   * exactly one line height (zero in a context whose font never loaded) when
   * none is.
   */
  function TextWDegraded(native: Native, dc: DC, text: seq<bv8>): (r: int)
    ensures HasFont(dc) ==> Ok(r) == TextW(native, dc, text)
    ensures !HasFont(dc) ==> r == dc.font.height
  {
    TextNWDegraded(native, dc, text, StrLen(text)) + dc.font.height
  }

  /**
   * A stricter alternative to the silent degrade: `initfont` made fatal,
   * like every other way of ending without a font, when nothing loads, and
   * otherwise exactly `InitFont`. A context it returns always has a font.
   */
  function InitFontStrict(dc: DC, probe: FontProbe): (r: Result<DC, Fatal>)
    requires LoadedBackends(dc) == {}
    ensures r.Ok? ==> HasFont(r.value)
    ensures r.Ok? ==> r == InitFont(dc, probe)
    ensures r.Err? <==> InitFont(dc, probe).Err? || (probe.bitmap.None? && probe.fontSet.None? && probe.shaped.NotCompiled?)
  {
    InitFontCanLeaveNoFont(dc, probe);
    var r := InitFont(dc, probe);
    if r.Ok? && !HasFont(r.value) then Err(CannotLoadFont) else r
  }
}

=== FILE: lifecycle.dfy ===
/**
 * The life of the canvas and of the Xft drawable: `resizedc` replaces the
 * canvas, `freedc` tears the context down. Which canvases are alive, and which
 * canvas the drawable paints into, is read off the trace by replaying it.
 */
module Lifecycle {
  import opened Wrappers
  import opened CTypes
  import opened DrawContext
  import opened Fonts
  import opened Painting

  /** Fold `step` over the events of `t`, oldest first. */
  function Replay<S>(step: (S, Event) -> S, s: S, t: seq<Event>): S
    decreases |t|
  {
    if |t| == 0 then s else Replay(step, step(s, t[0]), t[1..])
  }

  lemma {:induction false} ReplayAppend<S>(step: (S, Event) -> S, s: S, a: seq<Event>, b: seq<Event>)
    ensures Replay(step, s, a + b) == Replay(step, Replay(step, s, a), b)
    decreases |a|
  {
    if |a| == 0 {
      assert a + b == b;
    } else {
      assert (a + b)[0] == a[0];
      assert (a + b)[1..] == a[1..] + b;
      ReplayAppend(step, step(s, a[0]), a[1..], b);
    }
  }

  lemma ReplayOne<S>(step: (S, Event) -> S, s: S, e: Event)
    ensures Replay(step, s, [e]) == step(s, e)
  {
    assert [e][1..] == [];
  }

  /** Events that leave the state where it is change nothing when replayed. */
  lemma {:induction false} ReplayInert<S>(step: (S, Event) -> S, s: S, t: seq<Event>)
    requires forall i :: 0 <= i < |t| ==> step(s, t[i]) == s
    ensures Replay(step, s, t) == s
    decreases |t|
  {
    if |t| > 0 {
      ReplayInert(step, s, t[1..]);
    }
  }

  /** Canvases acquired and not yet released. */
  function CanvasStep(live: set<Handle>, e: Event): set<Handle> {
    match e
    case Acquire(CanvasPixmap(c)) => live + {c}
    case Release(CanvasPixmap(c)) => live - {c}
    case _ => live
  }

  function LiveCanvases(t: seq<Event>): set<Handle> {
    Replay(CanvasStep, {}, t)
  }

  function AsSet(o: Option<Handle>): set<Handle> {
    if o.Some? then {o.value} else {}
  }

  /** The canvases alive are exactly the one the context holds, if any. */
  predicate CanvasAccounted(dc: DC) {
    LiveCanvases(dc.trace) == AsSet(dc.canvas)
  }

  predicate TouchesCanvas(e: Event) {
    (e.Acquire? || e.Release?) && e.res.CanvasPixmap?
  }

  /** Appending events that neither acquire nor release a canvas keeps the live set. */
  lemma LiveCanvasesIgnore(t: seq<Event>, u: seq<Event>)
    requires forall i :: 0 <= i < |u| ==> !TouchesCanvas(u[i])
    ensures LiveCanvases(t + u) == LiveCanvases(t)
  {
    ReplayAppend(CanvasStep, {}, t, u);
    ReplayInert(CanvasStep, LiveCanvases(t), u);
  }

  /**
   * A context fresh from `initdc` starts with its canvas accounting in place
   * (no canvas, none alive) and no Xft drawable bound, and tearing it down
   * releases exactly the display connection and graphics context it acquired.
   */
  lemma FreshContextAccounted(display: Handle, gc: Handle)
    ensures var dc := InitDC(Some(display), gc).value;
      && CanvasAccounted(dc)
      && DrawableOnCanvas(dc) && DrawableTarget(dc.trace) == None
      && Released(FreeDC(dc)) == {DisplayConnection(display), GraphicsContext(gc)}
  {
    var dc := InitDC(Some(display), gc).value;
    var a := Acquire(DisplayConnection(display));
    var b := Acquire(GraphicsContext(gc));
    assert dc.trace == [a] + [b];
    ReplayAppend(CanvasStep, {}, [a], [b]);
    ReplayOne(CanvasStep, {}, a);
    ReplayOne(CanvasStep, {}, b);
    ReplayAppend(DrawableStep, None, [a], [b]);
    ReplayOne(DrawableStep, None, a);
    ReplayOne(DrawableStep, None, b);
  }

  /** The canvas the Xft drawable was last created on or rebound to. */
  function DrawableStep(target: Option<Handle>, e: Event): Option<Handle> {
    match e
    case CreateDrawable(_, c) => Some(c)
    case RebindDrawable(_, c) => Some(c)
    case DestroyDrawable(_) => None
    case _ => target
  }

  function DrawableTarget(t: seq<Event>): Option<Handle> {
    Replay(DrawableStep, None, t)
  }

  /** An existing Xft drawable paints into the current canvas. */
  predicate DrawableOnCanvas(dc: DC) {
    dc.xftdraw.Some? ==> DrawableTarget(dc.trace) == dc.canvas
  }

  /** The release of the current canvas, if there is one. */
  function FreeCanvas(dc: DC): seq<Event> {
    if dc.canvas.Some? then [Release(CanvasPixmap(dc.canvas.value))] else []
  }

  /**
   * `resizedc`: free the old canvas, record the new size, allocate `pixmap`,
   * and create an Xft drawable on it only when a layout exists and no drawable
   * does yet. `drawable` is what `XftDrawCreate` would return.
   */
  function ResizeDC(dc: DC, w: uint32, h: uint32, pixmap: Handle, drawable: Option<Handle>): (r: Result<DC, Fatal>)
    ensures r.Err? <==> dc.layout.Some? && dc.xftdraw.None? && drawable.None?
    ensures r.Ok? ==> r.value.w == Int32Of(w) && r.value.h == Int32Of(h) && r.value.canvas == Some(pixmap)
    ensures r.Ok? && w < INT32_LIMIT && h < INT32_LIMIT ==> r.value.w == w && r.value.h == h
    ensures r.Ok? && dc.xftdraw.Some? ==> r.value.xftdraw == dc.xftdraw
    ensures r.Ok? ==> (r.value.xftdraw.Some? <==> dc.xftdraw.Some? || dc.layout.Some?)
    ensures r.Ok? ==> r.value.(w := dc.w, h := dc.h, canvas := dc.canvas, xftdraw := dc.xftdraw, trace := dc.trace) == dc
    ensures r.Ok? ==> dc.trace <= r.value.trace
  {
    var resized := dc.(w := Int32Of(w), h := Int32Of(h), canvas := Some(pixmap),
                       trace := dc.trace + FreeCanvas(dc) + [Acquire(CanvasPixmap(pixmap))]);
    if dc.layout.Some? && dc.xftdraw.None? then
      if drawable.None? then Err(CannotCreateXftDrawable)
      else Ok(resized.(xftdraw := drawable, trace := resized.trace + [CreateDrawable(drawable.value, pixmap)]))
    else Ok(resized)
  }

  /** The canvas accounting across one resize: the old canvas is freed before the new one is allocated. */
  lemma ResizeCanvasStep(dc: DC, pixmap: Handle)
    requires CanvasAccounted(dc)
    ensures LiveCanvases(dc.trace + FreeCanvas(dc) + [Acquire(CanvasPixmap(pixmap))]) == {pixmap}
  {
    var freed := dc.trace + FreeCanvas(dc);
    ReplayAppend(CanvasStep, {}, dc.trace, FreeCanvas(dc));
    if dc.canvas.Some? {
      ReplayOne(CanvasStep, LiveCanvases(dc.trace), Release(CanvasPixmap(dc.canvas.value)));
    }
    assert LiveCanvases(freed) == {};
    ReplayAppend(CanvasStep, {}, freed, [Acquire(CanvasPixmap(pixmap))]);
    ReplayOne(CanvasStep, {}, Acquire(CanvasPixmap(pixmap)));
  }

  /**
   * After a resize exactly one canvas is alive, the new one, whatever handle
   * the display hands back (even the one just freed).
   */
  lemma ResizeKeepsOneCanvas(dc: DC, w: uint32, h: uint32, pixmap: Handle, drawable: Option<Handle>)
    requires CanvasAccounted(dc)
    requires ResizeDC(dc, w, h, pixmap, drawable).Ok?
    ensures LiveCanvases(ResizeDC(dc, w, h, pixmap, drawable).value.trace) == {pixmap}
    ensures CanvasAccounted(ResizeDC(dc, w, h, pixmap, drawable).value)
  {
    var base := dc.trace + FreeCanvas(dc) + [Acquire(CanvasPixmap(pixmap))];
    ResizeCanvasStep(dc, pixmap);
    if dc.layout.Some? && dc.xftdraw.None? {
      LiveCanvasesIgnore(base, [CreateDrawable(drawable.value, pixmap)]);
    }
  }

  /** The first resize with a layout creates the drawable on the new canvas. */
  lemma FirstResizeCreatesDrawable(dc: DC, w: uint32, h: uint32, p: Handle, d: Handle)
    requires dc.layout.Some? && dc.xftdraw.None?
    ensures var first := ResizeDC(dc, w, h, p, Some(d));
      && first.Ok?
      && first.value.xftdraw == Some(d) && first.value.canvas == Some(p)
      && first.value.trace == dc.trace + (FreeCanvas(dc) + [Acquire(CanvasPixmap(p)), CreateDrawable(d, p)])
      && DrawableTarget(first.value.trace) == Some(p)
  {
    var head := dc.trace + FreeCanvas(dc) + [Acquire(CanvasPixmap(p))];
    var first := ResizeDC(dc, w, h, p, Some(d)).value;
    assert first.trace == head + [CreateDrawable(d, p)];
    ReplayAppend(DrawableStep, None, head, [CreateDrawable(d, p)]);
  }

  /** A resize of a context that already has a drawable only frees and allocates, leaving the drawable's target alone. */
  lemma LaterResizeLeavesTarget(dc: DC, w: uint32, h: uint32, p: Handle, d: Option<Handle>)
    requires dc.xftdraw.Some? && dc.canvas.Some?
    ensures var second := ResizeDC(dc, w, h, p, d);
      && second.Ok?
      && second.value.xftdraw == dc.xftdraw
      && second.value.trace == dc.trace + [Release(CanvasPixmap(dc.canvas.value)), Acquire(CanvasPixmap(p))]
      && DrawableTarget(second.value.trace) == DrawableTarget(dc.trace)
  {
    var tail := [Release(CanvasPixmap(dc.canvas.value)), Acquire(CanvasPixmap(p))];
    assert ResizeDC(dc, w, h, p, d).value.trace == dc.trace + tail;
    ReplayAppend(DrawableStep, None, dc.trace, tail);
    ReplayInert(DrawableStep, DrawableTarget(dc.trace), tail);
  }

  /**
   * Two resizes in a row on a context with a layout and no drawable yet: one
   * canvas is alive afterwards, the drawable is created once, on the first
   * resize, and is still bound to the first canvas after the second.
   */
  lemma SecondResizeKeepsFirstBinding(dc: DC, w1: uint32, h1: uint32, p1: Handle, d1: Handle,
                                      w2: uint32, h2: uint32, p2: Handle, d2: Option<Handle>)
    requires CanvasAccounted(dc)
    requires dc.layout.Some? && dc.xftdraw.None?
    ensures ResizeDC(dc, w1, h1, p1, Some(d1)).Ok?
    ensures var first := ResizeDC(dc, w1, h1, p1, Some(d1)).value;
      var second := ResizeDC(first, w2, h2, p2, d2);
      && second.Ok?
      && LiveCanvases(second.value.trace) == {p2}
      && second.value.xftdraw == Some(d1)
      && first.trace[|dc.trace|..] == FreeCanvas(dc) + [Acquire(CanvasPixmap(p1)), CreateDrawable(d1, p1)]
      && second.value.trace[|first.trace|..] == [Release(CanvasPixmap(p1)), Acquire(CanvasPixmap(p2))]
      && DrawableTarget(second.value.trace) == Some(p1)
  {
    FirstResizeCreatesDrawable(dc, w1, h1, p1, d1);
    var first := ResizeDC(dc, w1, h1, p1, Some(d1)).value;
    ResizeKeepsOneCanvas(dc, w1, h1, p1, Some(d1));
    LaterResizeLeavesTarget(first, w2, h2, p2, d2);
    ResizeKeepsOneCanvas(first, w2, h2, p2, d2);
    var added := FreeCanvas(dc) + [Acquire(CanvasPixmap(p1)), CreateDrawable(d1, p1)];
    assert first.trace[|dc.trace|..] == added;
    var second := ResizeDC(first, w2, h2, p2, d2).value;
    assert second.trace[|first.trace|..] == [Release(CanvasPixmap(p1)), Acquire(CanvasPixmap(p2))];
  }

  /**
   * As written, a second resize onto a different pixmap leaves the drawable
   * bound to the canvas that resize just freed.
   */
  lemma ResizeLeavesDrawableOnFreedCanvas(dc: DC, w1: uint32, h1: uint32, p1: Handle, d1: Handle,
                                          w2: uint32, h2: uint32, p2: Handle)
    requires CanvasAccounted(dc)
    requires dc.layout.Some? && dc.xftdraw.None?
    requires p1 != p2
    ensures var first := ResizeDC(dc, w1, h1, p1, Some(d1)).value;
      var second := ResizeDC(first, w2, h2, p2, None).value;
      && DrawableOnCanvas(first)
      && !DrawableOnCanvas(second)
      && p1 !in LiveCanvases(second.trace)
  {
    SecondResizeKeepsFirstBinding(dc, w1, h1, p1, d1, w2, h2, p2, None);
    var first := ResizeDC(dc, w1, h1, p1, Some(d1)).value;
    var head := dc.trace + FreeCanvas(dc) + [Acquire(CanvasPixmap(p1))];
    assert first.trace == head + [CreateDrawable(d1, p1)];
    ReplayAppend(DrawableStep, None, head, [CreateDrawable(d1, p1)]);
  }

  /**
   * `resizedc` with the drawable moved onto the new canvas (`XftDrawChange`)
   * whenever one already exists.
   */
  function ResizeDCRebinding(dc: DC, w: uint32, h: uint32, pixmap: Handle, drawable: Option<Handle>): (r: Result<DC, Fatal>)
    ensures r.Err? <==> ResizeDC(dc, w, h, pixmap, drawable).Err?
    ensures r.Ok? ==> r.value.(trace := []) == ResizeDC(dc, w, h, pixmap, drawable).value.(trace := [])
  {
    var r := ResizeDC(dc, w, h, pixmap, drawable);
    if r.Ok? && dc.xftdraw.Some? then
      Ok(r.value.(trace := r.value.trace + [RebindDrawable(dc.xftdraw.value, pixmap)]))
    else r
  }

  /**
   * With rebinding, every resize leaves an existing drawable painting into the
   * new canvas, and still exactly one canvas alive.
   */
  lemma RebindingKeepsDrawableOnCanvas(dc: DC, w: uint32, h: uint32, pixmap: Handle, drawable: Option<Handle>)
    requires ResizeDCRebinding(dc, w, h, pixmap, drawable).Ok?
    ensures DrawableOnCanvas(ResizeDCRebinding(dc, w, h, pixmap, drawable).value)
    ensures CanvasAccounted(dc) ==> LiveCanvases(ResizeDCRebinding(dc, w, h, pixmap, drawable).value.trace) == {pixmap}
  {
    var plain := ResizeDC(dc, w, h, pixmap, drawable).value;
    var r := ResizeDCRebinding(dc, w, h, pixmap, drawable).value;
    if dc.xftdraw.Some? {
      ReplayAppend(DrawableStep, None, plain.trace, [RebindDrawable(dc.xftdraw.value, pixmap)]);
      if CanvasAccounted(dc) {
        ResizeKeepsOneCanvas(dc, w, h, pixmap, drawable);
        LiveCanvasesIgnore(plain.trace, [RebindDrawable(dc.xftdraw.value, pixmap)]);
      }
    } else if dc.layout.Some? {
      var head := dc.trace + FreeCanvas(dc) + [Acquire(CanvasPixmap(pixmap))];
      ReplayAppend(DrawableStep, None, head, [CreateDrawable(drawable.value, pixmap)]);
      if CanvasAccounted(dc) {
        ResizeKeepsOneCanvas(dc, w, h, pixmap, drawable);
      }
    } else if CanvasAccounted(dc) {
      ResizeKeepsOneCanvas(dc, w, h, pixmap, drawable);
    }
  }

  /** Release order of `freedc`: each resource before the ones it depends on. */
  function TeardownRank(e: Event): nat {
    match e
    case DestroyDrawable(_) => 0
    case ShutdownShaping => 1
    case Release(LayoutObject(_)) => 2
    case Release(FontSetObject(_)) => 3
    case Release(BitmapFontObject(_)) => 4
    case Release(CanvasPixmap(_)) => 5
    case Release(GraphicsContext(_)) => 6
    case Release(DisplayConnection(_)) => 7
    case _ => 8
  }

  /** Every request in `t` comes strictly later in the release order than the one before it. */
  predicate InTeardownOrder(t: seq<Event>) {
    forall i, j :: 0 <= i < j < |t| ==> TeardownRank(t[i]) < TeardownRank(t[j])
  }

  predicate RanksWithin(t: seq<Event>, lo: nat, hi: nat) {
    forall i :: 0 <= i < |t| ==> lo <= TeardownRank(t[i]) < hi
  }

  lemma OrderedConcat(a: seq<Event>, b: seq<Event>, lo: nat, mid: nat, hi: nat)
    requires lo <= mid <= hi
    requires InTeardownOrder(a) && RanksWithin(a, lo, mid)
    requires InTeardownOrder(b) && RanksWithin(b, mid, hi)
    ensures InTeardownOrder(a + b) && RanksWithin(a + b, lo, hi)
  {
    forall i, j | 0 <= i < j < |a + b| ensures TeardownRank((a + b)[i]) < TeardownRank((a + b)[j]) {
      if j < |a| {
        assert (a + b)[i] == a[i] && (a + b)[j] == a[j];
      } else if i >= |a| {
        assert (a + b)[i] == b[i - |a|] && (a + b)[j] == b[j - |a|];
      } else {
        assert (a + b)[i] == a[i] && (a + b)[j] == b[j - |a|];
      }
    }
    forall i | 0 <= i < |a + b| ensures lo <= TeardownRank((a + b)[i]) < hi {
      if i < |a| {
        assert (a + b)[i] == a[i];
      } else {
        assert (a + b)[i] == b[i - |a|];
      }
    }
  }

  /** The resources a trace segment releases. */
  function Released(t: seq<Event>): set<Resource> {
    set i | 0 <= i < |t| && t[i].Release? :: t[i].res
  }

  lemma ReleasedAppend(a: seq<Event>, b: seq<Event>)
    ensures Released(a + b) == Released(a) + Released(b)
  {
    forall x | x in Released(a + b) ensures x in Released(a) + Released(b) {
      var i :| 0 <= i < |a + b| && (a + b)[i].Release? && (a + b)[i].res == x;
      if i < |a| {
        assert a[i] == (a + b)[i];
      } else {
        assert b[i - |a|] == (a + b)[i];
      }
    }
    forall x | x in Released(a) + Released(b) ensures x in Released(a + b) {
      if x in Released(a) {
        var i :| 0 <= i < |a| && a[i].Release? && a[i].res == x;
        assert (a + b)[i] == a[i];
      } else {
        var i :| 0 <= i < |b| && b[i].Release? && b[i].res == x;
        assert (a + b)[i + |a|] == b[i];
      }
    }
  }

  lemma ReleasedOne(e: Event)
    ensures Released([e]) == if e.Release? then {e.res} else {}
  {
    if e.Release? {
      assert [e][0] == e;
    }
  }

  /** The resources a context holds. */
  function Owned(dc: DC): set<Resource> {
    {DisplayConnection(dc.dpy), GraphicsContext(dc.gc)}
    + (if dc.canvas.Some? then {CanvasPixmap(dc.canvas.value)} else {})
    + (if dc.layout.Some? then {LayoutObject(dc.layout.value)} else {})
    + (if dc.font.fontSet.Some? then {FontSetObject(dc.font.fontSet.value)} else {})
    + (if dc.font.xfont.Some? then {BitmapFontObject(dc.font.xfont.value)} else {})
  }

  function ShapingTeardown(dc: DC): seq<Event> {
    if dc.layout.Some? then [DestroyDrawable(dc.xftdraw), ShutdownShaping, Release(LayoutObject(dc.layout.value))]
    else []
  }

  function FontTeardown(dc: DC): seq<Event> {
    (if dc.font.fontSet.Some? then [Release(FontSetObject(dc.font.fontSet.value))] else [])
    + (if dc.font.xfont.Some? then [Release(BitmapFontObject(dc.font.xfont.value))] else [])
  }

  lemma ShapingTeardownReleases(dc: DC)
    ensures Released(ShapingTeardown(dc)) == if dc.layout.Some? then {LayoutObject(dc.layout.value)} else {}
  {
    if dc.layout.Some? {
      var l := dc.layout.value;
      assert ShapingTeardown(dc) == [DestroyDrawable(dc.xftdraw)] + [ShutdownShaping] + [Release(LayoutObject(l))];
      ReleasedAppend([DestroyDrawable(dc.xftdraw)] + [ShutdownShaping], [Release(LayoutObject(l))]);
      ReleasedAppend([DestroyDrawable(dc.xftdraw)], [ShutdownShaping]);
      ReleasedOne(DestroyDrawable(dc.xftdraw));
      ReleasedOne(ShutdownShaping);
      ReleasedOne(Release(LayoutObject(l)));
    }
  }

  lemma FontTeardownReleases(dc: DC)
    ensures Released(FontTeardown(dc)) ==
      (if dc.font.fontSet.Some? then {FontSetObject(dc.font.fontSet.value)} else {})
      + (if dc.font.xfont.Some? then {BitmapFontObject(dc.font.xfont.value)} else {})
  {
    var sets := if dc.font.fontSet.Some? then [Release(FontSetObject(dc.font.fontSet.value))] else [];
    var fonts := if dc.font.xfont.Some? then [Release(BitmapFontObject(dc.font.xfont.value))] else [];
    ReleasedAppend(sets, fonts);
    if dc.font.fontSet.Some? { ReleasedOne(Release(FontSetObject(dc.font.fontSet.value))); }
    if dc.font.xfont.Some? { ReleasedOne(Release(BitmapFontObject(dc.font.xfont.value))); }
  }

  lemma ConnectionTeardownReleases(dc: DC)
    ensures Released([Release(GraphicsContext(dc.gc)), Release(DisplayConnection(dc.dpy))])
            == {DisplayConnection(dc.dpy), GraphicsContext(dc.gc)}
  {
    var last := [Release(GraphicsContext(dc.gc)), Release(DisplayConnection(dc.dpy))];
    assert last == [Release(GraphicsContext(dc.gc))] + [Release(DisplayConnection(dc.dpy))];
    ReleasedAppend([Release(GraphicsContext(dc.gc))], [Release(DisplayConnection(dc.dpy))]);
    ReleasedOne(Release(GraphicsContext(dc.gc)));
    ReleasedOne(Release(DisplayConnection(dc.dpy)));
  }

  lemma TeardownReleasesOwned(dc: DC)
    ensures Released(ShapingTeardown(dc) + FontTeardown(dc) + FreeCanvas(dc)
                     + [Release(GraphicsContext(dc.gc)), Release(DisplayConnection(dc.dpy))]) == Owned(dc)
  {
    var shaping := ShapingTeardown(dc);
    var last := [Release(GraphicsContext(dc.gc)), Release(DisplayConnection(dc.dpy))];
    ShapingTeardownReleases(dc);
    FontTeardownReleases(dc);
    ConnectionTeardownReleases(dc);
    if dc.canvas.Some? { ReleasedOne(Release(CanvasPixmap(dc.canvas.value))); }
    ReleasedAppend(shaping, FontTeardown(dc));
    ReleasedAppend(shaping + FontTeardown(dc), FreeCanvas(dc));
    ReleasedAppend(shaping + FontTeardown(dc) + FreeCanvas(dc), last);
  }

  lemma ShapingTeardownOrdered(dc: DC)
    ensures InTeardownOrder(ShapingTeardown(dc)) && RanksWithin(ShapingTeardown(dc), 0, 3)
  {
    if dc.layout.Some? {
      var t := ShapingTeardown(dc);
      assert TeardownRank(t[0]) == 0 && TeardownRank(t[1]) == 1 && TeardownRank(t[2]) == 2;
    }
  }

  lemma SingleOrdered(e: Event, lo: nat, hi: nat)
    requires lo <= TeardownRank(e) < hi
    ensures InTeardownOrder([e]) && RanksWithin([e], lo, hi)
  {
  }

  lemma TeardownOrdered(dc: DC)
    ensures InTeardownOrder(ShapingTeardown(dc) + FontTeardown(dc) + FreeCanvas(dc)
                            + [Release(GraphicsContext(dc.gc)), Release(DisplayConnection(dc.dpy))])
  {
    var shaping := ShapingTeardown(dc);
    var sets := if dc.font.fontSet.Some? then [Release(FontSetObject(dc.font.fontSet.value))] else [];
    var fonts := if dc.font.xfont.Some? then [Release(BitmapFontObject(dc.font.xfont.value))] else [];
    assert FontTeardown(dc) == sets + fonts;
    ShapingTeardownOrdered(dc);
    if dc.font.fontSet.Some? { SingleOrdered(Release(FontSetObject(dc.font.fontSet.value)), 3, 4); }
    if dc.font.xfont.Some? { SingleOrdered(Release(BitmapFontObject(dc.font.xfont.value)), 4, 5); }
    if dc.canvas.Some? { SingleOrdered(Release(CanvasPixmap(dc.canvas.value)), 5, 6); }
    OrderedConcat(sets, fonts, 3, 4, 5);
    OrderedConcat(shaping, FontTeardown(dc), 0, 3, 5);
    OrderedConcat(shaping + FontTeardown(dc), FreeCanvas(dc), 0, 5, 6);
    SingleOrdered(Release(GraphicsContext(dc.gc)), 6, 7);
    SingleOrdered(Release(DisplayConnection(dc.dpy)), 7, 8);
    OrderedConcat([Release(GraphicsContext(dc.gc))], [Release(DisplayConnection(dc.dpy))], 6, 7, 8);
    var last := [Release(GraphicsContext(dc.gc)), Release(DisplayConnection(dc.dpy))];
    assert last == [Release(GraphicsContext(dc.gc))] + [Release(DisplayConnection(dc.dpy))];
    OrderedConcat(shaping + FontTeardown(dc) + FreeCanvas(dc), last, 0, 6, 8);
  }

  /**
   * `freedc`: the requests it makes, in order. It releases exactly the
   * resources the context holds, each once and in dependency order, ending
   * with the display connection; the Xft drawable is destroyed, even when
   * NULL, exactly when a layout exists.
   */
  function FreeDC(dc: DC): (r: seq<Event>)
    ensures InTeardownOrder(r)
    ensures Released(r) == Owned(dc)
    ensures DestroyDrawable(dc.xftdraw) in r <==> dc.layout.Some?
    ensures ShutdownShaping in r <==> dc.layout.Some?
    ensures DestroysOnly(r, dc.xftdraw)
    ensures |r| > 0 && r[|r| - 1] == Release(DisplayConnection(dc.dpy))
  {
    var r := ShapingTeardown(dc) + FontTeardown(dc) + FreeCanvas(dc)
             + [Release(GraphicsContext(dc.gc)), Release(DisplayConnection(dc.dpy))];
    TeardownReleasesOwned(dc);
    TeardownOrdered(dc);
    TeardownDestroysOwnDrawable(dc);
    r
  }

  /** Every drawable-destroy request of `r` is for `drawable`. */
  predicate DestroysOnly(r: seq<Event>, drawable: Option<Handle>) {
    forall e :: e in r && e.DestroyDrawable? ==> e == DestroyDrawable(drawable)
  }

  /** The only drawable teardown destroys is the context's own: every other request is a release. */
  lemma TeardownDestroysOwnDrawable(dc: DC)
    ensures DestroysOnly(ShapingTeardown(dc) + FontTeardown(dc) + FreeCanvas(dc)
                         + [Release(GraphicsContext(dc.gc)), Release(DisplayConnection(dc.dpy))], dc.xftdraw)
  {
    var rest := FontTeardown(dc) + FreeCanvas(dc) + [Release(GraphicsContext(dc.gc)), Release(DisplayConnection(dc.dpy))];
    assert forall e :: e in rest ==> e.Release?;
    assert ShapingTeardown(dc) + FontTeardown(dc) + FreeCanvas(dc)
           + [Release(GraphicsContext(dc.gc)), Release(DisplayConnection(dc.dpy))] == ShapingTeardown(dc) + rest;
  }

  /** Tearing down a context whose canvas accounting holds leaves no canvas alive. */
  lemma FreeDCLeavesNoCanvas(dc: DC)
    requires CanvasAccounted(dc)
    ensures LiveCanvases(dc.trace + FreeDC(dc)) == {}
  {
    FreeDCSegments(dc);
    TeardownLeavesNoCanvas(dc);
  }

  /** The teardown requests, segment by segment, free the one live canvas and touch no other. */
  lemma TeardownLeavesNoCanvas(dc: DC)
    requires CanvasAccounted(dc)
    ensures LiveCanvases(dc.trace + (ShapingTeardown(dc) + FontTeardown(dc) + FreeCanvas(dc)
                                     + [Release(GraphicsContext(dc.gc)), Release(DisplayConnection(dc.dpy))])) == {}
  {
    var pre := ShapingTeardown(dc) + FontTeardown(dc);
    var post := [Release(GraphicsContext(dc.gc)), Release(DisplayConnection(dc.dpy))];
    var live := LiveCanvases(dc.trace);
    ReplayAppend(CanvasStep, {}, dc.trace, pre + FreeCanvas(dc) + post);
    ReplayAppend(CanvasStep, live, pre + FreeCanvas(dc), post);
    ReplayAppend(CanvasStep, live, pre, FreeCanvas(dc));
    TeardownBeforeCanvasInert(dc);
    ReplayInert(CanvasStep, live, pre);
    if dc.canvas.Some? {
      ReplayOne(CanvasStep, live, Release(CanvasPixmap(dc.canvas.value)));
    }
    assert Replay(CanvasStep, live, FreeCanvas(dc)) == {};
    assert !TouchesCanvas(post[0]) && !TouchesCanvas(post[1]);
    ReplayInert(CanvasStep, {}, post);
  }

  lemma FreeDCSegments(dc: DC)
    ensures FreeDC(dc) == ShapingTeardown(dc) + FontTeardown(dc) + FreeCanvas(dc)
                          + [Release(GraphicsContext(dc.gc)), Release(DisplayConnection(dc.dpy))]
  {
  }

  lemma TeardownBeforeCanvasInert(dc: DC)
    ensures forall i :: 0 <= i < |ShapingTeardown(dc) + FontTeardown(dc)| ==>
      !TouchesCanvas((ShapingTeardown(dc) + FontTeardown(dc))[i])
  {
    var pre := ShapingTeardown(dc) + FontTeardown(dc);
    forall i | 0 <= i < |pre| ensures !TouchesCanvas(pre[i]) {
      if i < |ShapingTeardown(dc)| {
        assert pre[i] == ShapingTeardown(dc)[i];
      } else {
        assert pre[i] == FontTeardown(dc)[i - |ShapingTeardown(dc)|];
      }
    }
  }

  /** Painting text neither acquires nor releases a canvas. */
  lemma DrawTextKeepsCanvasAccounting(native: Native, dc: DC, text: seq<bv8>, col: ColorSet)
    requires CanvasAccounted(dc)
    requires DrawText(native, dc, text, col).Ok?
    ensures CanvasAccounted(DrawText(native, dc, text, col).value)
  {
    assert HasFont(dc);
    match Fitted(native, dc, text)
    case None =>
    case Some(buf) =>
      var cleared := DrawRect(dc, 0, 0, ToUint32(dc.w), ToUint32(dc.h), true, col.bg);
      var rect := [SetForeground(col.bg), FillRectangle(dc.x, dc.y, ToUint32(dc.w), ToUint32(dc.h))];
      assert cleared.trace == dc.trace + rect;
      LiveCanvasesIgnore(dc.trace, rect);
      var t := DrawTextN(cleared, buf, |buf|, col).value.trace;
      var u := t[|cleared.trace|..];
      assert t == cleared.trace + u;
      forall i | 0 <= i < |u| ensures !TouchesCanvas(u[i]) {
      }
      LiveCanvasesIgnore(cleared.trace, u);
  }

  /** Loading a font neither acquires nor releases a canvas. */
  lemma InitFontKeepsCanvasAccounting(dc: DC, probe: FontProbe)
    requires CanvasAccounted(dc)
    requires InitFont(dc, probe).Ok?
    ensures CanvasAccounted(InitFont(dc, probe).value)
  {
    var t := InitFont(dc, probe).value.trace;
    var u := t[|dc.trace|..];
    assert t == dc.trace + u;
    forall i | 0 <= i < |u| ensures !TouchesCanvas(u[i]) {
    }
    LiveCanvasesIgnore(dc.trace, u);
  }
}

=== FILE: painting.dfy ===
/**
 * Painting into the canvas: `drawrect`, `drawtextn` and `drawtext`. Each call
 * appends the requests it makes of the display to the context's trace and
 * changes nothing else.
 */
module Painting {
  import opened Wrappers
  import opened CTypes
  import opened DrawContext
  import opened Fonts
  import opened TextFit

  /** Pango device units per pixel. */
  const PANGO_SCALE: int := 1024

  /** A block of pixels: top-left corner and extent. */
  datatype Box = Box(left: int, top: int, width: int, height: int)

  /**
   * The pixels an X rectangle request paints: a filled w by h rectangle covers
   * w by h pixels, an outlined one w+1 by h+1.
   */
  function Covered(e: Event): Box {
    match e
    case FillRectangle(x, y, w, h) => Box(x, y, w, h)
    case OutlineRectangle(x, y, w, h) => Box(x, y, w + 1, h + 1)
    case _ => Box(0, 0, 0, 0)
  }

  /**
   * `drawrect`: set the pen colour, then fill or outline the rectangle offset
   * by the context origin; either way a non-empty request paints exactly the
   * w by h block, while an outline of width or height 0 wraps around.
   */
  function DrawRect(dc: DC, x: int, y: int, w: uint32, h: uint32, fill: bool, color: Pixel): (r: DC)
    ensures r.(trace := dc.trace) == dc
    ensures |r.trace| == |dc.trace| + 2 && r.trace[..|dc.trace|] == dc.trace
    ensures r.trace[|dc.trace|] == SetForeground(color)
    ensures fill ==> r.trace[|dc.trace| + 1].FillRectangle?
    ensures !fill ==> r.trace[|dc.trace| + 1].OutlineRectangle?
    ensures r.trace[|dc.trace| + 1].x == dc.x + x && r.trace[|dc.trace| + 1].y == dc.y + y
    ensures fill ==> Covered(r.trace[|dc.trace| + 1]) == Box(dc.x + x, dc.y + y, w, h)
    ensures !fill ==> Covered(r.trace[|dc.trace| + 1]) == Box(dc.x + x, dc.y + y, ToUint32(w - 1) + 1, ToUint32(h - 1) + 1)
    ensures w > 0 && h > 0 ==> Covered(r.trace[|dc.trace| + 1]) == Box(dc.x + x, dc.y + y, w, h)
    ensures !fill && w == 0 ==> r.trace[|dc.trace| + 1].w == UINT32_MODULUS - 1
    ensures !fill && h == 0 ==> r.trace[|dc.trace| + 1].h == UINT32_MODULUS - 1
  {
    var shape :=
      if fill then FillRectangle(dc.x + x, dc.y + y, w, h)
      else OutlineRectangle(dc.x + x, dc.y + y, ToUint32(w - 1), ToUint32(h - 1));
    dc.(trace := dc.trace + [SetForeground(color), shape])
  }

  /** `e` paints `bytes` through backend `b` with its baseline origin at pixel (x, y). */
  predicate DrawsAt(e: Event, b: Backend, bytes: seq<bv8>, x: int, y: int) {
    match e
    case DrawString(via, ex, ey, bs) => !via.ShapedLayout? && via == b && ex == x && ey == y && bs == bytes
    case RenderLine(via, _, xu, yu, bs) => via.ShapedLayout? && via == b && xu == x * PANGO_SCALE && yu == y * PANGO_SCALE && bs == bytes
    case _ => false
  }

  /**
   * `drawtextn`: set the foreground, then draw the first `n` bytes through the
   * active backend, half a line height right of the origin and one pixel
   * below the ascent. Fatal when the layout backend has no Xft drawable, and
   * when no font is set at all (the source dereferences the NULL `xfont`).
   */
  function DrawTextN(dc: DC, text: seq<bv8>, n: nat, col: ColorSet): (r: Result<DC, Fatal>)
    requires n <= |text|
    ensures r.Err? <==> !HasFont(dc) || (dc.layout.Some? && dc.xftdraw.None?)
    ensures !HasFont(dc) ==> r == Err(NullFont)
    ensures HasFont(dc) && r.Err? ==> r.error == NoXftDrawable
    ensures r.Ok? ==> HasFont(dc) && r.value.(trace := dc.trace) == dc
    ensures r.Ok? ==> |dc.trace| + 2 <= |r.value.trace| <= |dc.trace| + 3 && r.value.trace[..|dc.trace|] == dc.trace
    ensures r.Ok? ==> r.value.trace[|dc.trace|] == SetForeground(col.fg)
    ensures r.Ok? ==> (|r.value.trace| == |dc.trace| + 3 <==> Active(dc).BitmapFont?)
    ensures r.Ok? && Active(dc).BitmapFont? ==> r.value.trace[|dc.trace| + 1] == SetFont(dc.font.xfont.value)
    ensures r.Ok? ==> DrawsAt(r.value.trace[|r.value.trace| - 1], Active(dc), text[..n],
                              dc.x + Half(dc.font.height), dc.y + dc.font.ascent + 1)
    ensures r.Ok? && r.value.trace[|r.value.trace| - 1].RenderLine? ==> r.value.trace[|r.value.trace| - 1].color == col.fgXft
  {
    var x := dc.x + Half(dc.font.height);
    var y := dc.y + dc.font.ascent + 1;
    var inked := dc.trace + [SetForeground(col.fg)];
    if !HasFont(dc) then Err(NullFont)
    else if dc.layout.Some? then
      if dc.xftdraw.None? then Err(NoXftDrawable)
      else Ok(dc.(trace := inked + [RenderLine(ShapedLayout(dc.layout.value), col.fgXft,
                                               x * PANGO_SCALE, y * PANGO_SCALE, text[..n])]))
    else if dc.font.fontSet.Some? then
      Ok(dc.(trace := inked + [DrawString(FontSetFont(dc.font.fontSet.value), x, y, text[..n])]))
    else
      Ok(dc.(trace := inked + [SetFont(dc.font.xfont.value), DrawString(BitmapFont(dc.font.xfont.value), x, y, text[..n])]))
  }

  /** The bytes `drawtext` draws in `dc`, or `None` when nothing fits. */
  function Fitted(native: Native, dc: DC, text: seq<bv8>): Option<seq<bv8>>
    requires HasFont(dc)
  {
    Fit(MeasureOf(native, dc), text, dc.w, dc.font.height)
  }

  /** The painting half of `drawtext`: clear the context, then draw `fitted`, if anything fits. */
  function PaintFitted(dc: DC, fitted: Option<seq<bv8>>, col: ColorSet): Result<DC, Fatal>
    requires HasFont(dc)
  {
    match fitted
    case None => Ok(dc)
    case Some(buf) =>
      DrawTextN(DrawRect(dc, 0, 0, ToUint32(dc.w), ToUint32(dc.h), true, col.bg), buf, |buf|, col)
  }

  /**
   * `drawtext`: with no font set it fails (the first `textnw` already uses the
   * NULL font); when nothing fits it returns without a single request;
   * otherwise it is fatal exactly when `drawtextn` is, and it changes nothing
   * but the trace.
   */
  function DrawText(native: Native, dc: DC, text: seq<bv8>, col: ColorSet): (r: Result<DC, Fatal>)
    ensures !HasFont(dc) ==> r == Err(NullFont)
    ensures HasFont(dc) && Fitted(native, dc, text).None? ==> r == Ok(dc)
    ensures r.Err? <==> !HasFont(dc) || (Fitted(native, dc, text).Some? && dc.layout.Some? && dc.xftdraw.None?)
    ensures r.Ok? ==> r.value.(trace := dc.trace) == dc && dc.trace <= r.value.trace
  {
    if HasFont(dc) then PaintFitted(dc, Fitted(native, dc, text), col) else Err(NullFont)
  }

  /**
   * `drawtext` with the clamped dot run of `FitClamped`: it paints exactly as
   * `drawtext` does unless the label is cut to one or two bytes, and then it
   * draws dots where `drawtext` draws the plain prefix.
   */
  function DrawTextClamped(native: Native, dc: DC, text: seq<bv8>, col: ColorSet): (r: Result<DC, Fatal>)
    ensures r.Err? <==> DrawText(native, dc, text, col).Err?
    ensures HasFont(dc) ==>
      var f := Fitted(native, dc, text);
      !(f.Some? && 0 < |f.value| < 3 && |f.value| < StrLen(text)) ==> r == DrawText(native, dc, text, col)
    ensures r.Ok? && HasFont(dc) && Fitted(native, dc, text).Some? ==>
      var buf := FitClamped(MeasureOf(native, dc), text, dc.w, dc.font.height).value;
      && |r.value.trace| > 0
      && DrawsAt(r.value.trace[|r.value.trace| - 1], Active(dc), buf, dc.x + Half(dc.font.height), dc.y + dc.font.ascent + 1)
  {
    if HasFont(dc) then
      var measure := MeasureOf(native, dc);
      ClampedDiffersOnlyOnShortCuts(measure, text, dc.w, dc.font.height);
      var clamped := FitClamped(measure, text, dc.w, dc.font.height);
      var r := PaintFitted(dc, clamped, col);
      assert clamped.Some? && r.Ok? ==>
        (Active(DrawRect(dc, 0, 0, ToUint32(dc.w), ToUint32(dc.h), true, col.bg)) == Active(dc)
         && clamped.value[..|clamped.value|] == clamped.value);
      r
    else Err(NullFont)
  }

  /**
   * When `drawtext` paints, it first fills the whole context with the
   * background colour, then sets the foreground and finally draws the fitted
   * bytes at half a line height right of the origin, one pixel below the ascent.
   */
  lemma DrawTextClearsThenDraws(native: Native, dc: DC, text: seq<bv8>, col: ColorSet)
    requires HasFont(dc)
    requires Fitted(native, dc, text).Some?
    requires DrawText(native, dc, text, col).Ok?
    ensures var t := DrawText(native, dc, text, col).value.trace;
      var n := |dc.trace|;
      && (|t| == n + 4 || |t| == n + 5)
      && t[n..n + 3] == [SetForeground(col.bg), FillRectangle(dc.x, dc.y, ToUint32(dc.w), ToUint32(dc.h)), SetForeground(col.fg)]
      && (|t| == n + 5 <==> Active(dc).BitmapFont?)
      && (Active(dc).BitmapFont? ==> t[n + 3] == SetFont(dc.font.xfont.value))
      && DrawsAt(t[|t| - 1], Active(dc), Fitted(native, dc, text).value,
                 dc.x + Half(dc.font.height), dc.y + dc.font.ascent + 1)
      && (t[|t| - 1].RenderLine? ==> t[|t| - 1].color == col.fgXft)
    ensures 0 <= dc.w < UINT32_MODULUS && 0 <= dc.h < UINT32_MODULUS ==>
      Covered(DrawText(native, dc, text, col).value.trace[|dc.trace| + 1]) == Box(dc.x, dc.y, dc.w, dc.h)
  {
    var buf := Fitted(native, dc, text).value;
    var cleared := DrawRect(dc, 0, 0, ToUint32(dc.w), ToUint32(dc.h), true, col.bg);
    var t := DrawText(native, dc, text, col).value.trace;
    assert t == PaintFitted(dc, Some(buf), col).value.trace;
    assert t == DrawTextN(cleared, buf, |buf|, col).value.trace;
    assert buf[..|buf|] == buf;
    assert Active(cleared) == Active(dc);
  }

  /** `e` puts text on the canvas. */
  predicate PaintsText(e: Event) {
    e.DrawString? || e.RenderLine?
  }

  /** No event of `t` from position `from` on puts text on the canvas. */
  predicate NoTextFrom(t: seq<Event>, from: nat) {
    forall i :: from <= i < |t| ==> !PaintsText(t[i])
  }

  /**
   * `drawtextn` under the silent degrade: as `drawtextn` when a font is
   * set; with none it sets the foreground and draws no text, where the source
   * dereferences the NULL `xfont`.
   */
  function DrawTextNDegraded(dc: DC, text: seq<bv8>, n: nat, col: ColorSet): (r: Result<DC, Fatal>)
    requires n <= |text|
    ensures HasFont(dc) ==> r == DrawTextN(dc, text, n, col)
    ensures !HasFont(dc) ==> r.Ok? && r.value.(trace := dc.trace) == dc && dc.trace <= r.value.trace
    ensures !HasFont(dc) ==> NoTextFrom(r.value.trace, |dc.trace|)
    ensures r != Err(NullFont)
  {
    if HasFont(dc) then DrawTextN(dc, text, n, col)
    else Ok(dc.(trace := dc.trace + [SetForeground(col.fg)]))
  }

  /**
   * `drawtext` under the silent degrade: as `drawtext` when a font is set;
   * with none every label measures zero wide, so it clears the context and
   * draws no text. It never uses a NULL font: its only failure is the missing
   * Xft drawable, as for `drawtextn`.
   */
  function DrawTextDegraded(native: Native, dc: DC, text: seq<bv8>, col: ColorSet): (r: Result<DC, Fatal>)
    ensures HasFont(dc) ==> r == DrawText(native, dc, text, col)
    ensures !HasFont(dc) ==> r.Ok? && r.value.(trace := dc.trace) == dc && dc.trace <= r.value.trace
    ensures !HasFont(dc) ==> NoTextFrom(r.value.trace, |dc.trace|)
    ensures r.Err? ==> r.error == NoXftDrawable
  {
    match Fit(MeasureDegraded(native, dc), text, dc.w, dc.font.height)
    case None => Ok(dc)
    case Some(buf) =>
      DrawTextNDegraded(DrawRect(dc, 0, 0, ToUint32(dc.w), ToUint32(dc.h), true, col.bg), buf, |buf|, col)
  }

  /**
   * As written, a font name that neither X backend can load, in a build
   * without Pango, leaves a fresh context with no font and no error; the next
   * `textw` or `drawtext` then uses the NULL font. Under the silent
   * degrade the same context measures as one (zero) line height and draws
   * without failing; the strict variant stops at `initfont` instead.
   */
  lemma UnloadableFontReachesNullFont(display: Handle, gc: Handle, native: Native, text: seq<bv8>, col: ColorSet)
    ensures var dc := InitDC(Some(display), gc).value;
      var probe := FontProbe(None, None, false, NotCompiled);
      && InitFont(dc, probe).Ok?
      && !HasFont(InitFont(dc, probe).value)
      && TextW(native, InitFont(dc, probe).value, text) == Err(NullFont)
      && DrawText(native, InitFont(dc, probe).value, text, col) == Err(NullFont)
      && TextWDegraded(native, InitFont(dc, probe).value, text) == 0
      && DrawTextDegraded(native, InitFont(dc, probe).value, text, col).Ok?
      && InitFontStrict(dc, probe) == Err(CannotLoadFont)
  {
    var dc := InitDC(Some(display), gc).value;
    var probe := FontProbe(None, None, false, NotCompiled);
    InitFontCanLeaveNoFont(dc, probe);
  }
}

=== FILE: textfit.dfy ===
/**
 * The text fitter of `drawtext`: choose how many bytes of a string fit the
 * context width, then mark a truncation with dots. The width of a byte string
 * is an arbitrary function `measure`; nothing is assumed about it.
 */
module TextFit {
  import opened Wrappers
  import opened CTypes

  /** Capacity of the scratch buffer `buf[BUFSIZ]` (the C library's value). */
  const BUFSIZ: nat := 8192
  /** The byte written over the tail of a shortened string. */
  const DOT: bv8 := 0x2E

  /** Pixel width of a byte string, standing in for `textnw`. */
  type Measure = seq<bv8> -> int

  /** The loop guard's negation: the first `len` bytes leave half a line height spare. */
  predicate Fits(measure: Measure, text: seq<bv8>, len: nat, w: int, height: int)
    requires len <= |text|
  {
    measure(text[..len]) + Half(height) <= w
  }

  /** The first candidate length, `MIN(n, sizeof buf)`. */
  function Candidate(text: seq<bv8>): (c: nat)
    ensures c <= StrLen(text) && c <= BUFSIZ
    ensures c == StrLen(text) || c == BUFSIZ
  {
    var n := StrLen(text);
    if n < BUFSIZ then n else BUFSIZ
  }

  /**
   * The downward search of the shortening loop, starting at `mn`: the first
   * length that fits, or nothing once length 0 has been rejected as well.
   */
  function LongestFit(measure: Measure, text: seq<bv8>, w: int, height: int, mn: nat): (r: Option<nat>)
    requires mn <= |text|
    ensures r.Some? ==> r.value <= mn && Fits(measure, text, r.value, w, height)
    ensures r.Some? ==> forall k :: r.value < k <= mn ==> !Fits(measure, text, k, w, height)
    ensures r.None? ==> forall k :: 0 <= k <= mn ==> !Fits(measure, text, k, w, height)
    decreases mn
  {
    if Fits(measure, text, mn, w, height) then Some(mn)
    else if mn == 0 then None
    else LongestFit(measure, text, w, height, mn - 1)
  }

  /** First byte of the dot run as the source computes it: `MAX(mn-3, 0)` on `size_t`. */
  function EllipsisStart(mn: size_t): (s: size_t)
    ensures mn >= 3 ==> s == mn - 3
    ensures mn < 3 ==> s >= mn && s == SizeSub(mn, 3)
  {
    var d := SizeSub(mn, 3);
    if d > 0 then d else 0
  }

  /** The bytes `prefix` with every position from `from` on overwritten by a dot. */
  function Dotted(prefix: seq<bv8>, from: int): seq<bv8> {
    seq(|prefix|, i requires 0 <= i < |prefix| => if from <= i then DOT else prefix[i])
  }

  /**
   * What `drawtext` hands to `drawtextn`: `None` when it returns without painting,
   * otherwise the buffer of `mn` bytes.
   */
  function Fit(measure: Measure, text: seq<bv8>, w: int, height: int): (r: Option<seq<bv8>>)
    ensures r.None? <==> forall k :: 0 <= k <= Candidate(text) ==> !Fits(measure, text, k, w, height)
    ensures r.Some? ==> |r.value| <= Candidate(text) && Fits(measure, text, |r.value|, w, height)
    ensures r.Some? ==> forall k :: |r.value| < k <= Candidate(text) ==> !Fits(measure, text, k, w, height)
    ensures r.Some? && |r.value| == StrLen(text) ==> r.value == text[..|r.value|]
    ensures r.Some? && 3 <= |r.value| < StrLen(text) ==>
      var mn := |r.value|;
      r.value[..mn - 3] == text[..mn - 3] && r.value[mn - 3..] == [DOT, DOT, DOT]
    ensures r.Some? && |r.value| < 3 && |r.value| < StrLen(text) ==> r.value == text[..|r.value|]
  {
    match LongestFit(measure, text, w, height, Candidate(text))
    case None => None
    case Some(mn) =>
      var buf := text[..mn];
      if mn < StrLen(text) then
        var r := Dotted(buf, EllipsisStart(mn));
        assert 3 <= mn ==> r[..mn - 3] == text[..mn - 3] && r[mn - 3..] == [DOT, DOT, DOT];
        Some(r)
      else Some(buf)
  }

  /**
   * Lines 32-41 statement by statement: the `size_t` counter loop with its early
   * return, the `memcpy`, and the dot loop started at `MAX(mn-3, 0)`.
   */
  method ShortenText(measure: Measure, text: seq<bv8>, w: int, height: int) returns (painted: bool, buf: seq<bv8>)
    ensures painted <==> Fit(measure, text, w, height).Some?
    ensures painted ==> buf == Fit(measure, text, w, height).value
  {
    var n := StrLen(text);
    var mn: nat := if n < BUFSIZ then n else BUFSIZ;
    while measure(text[..mn]) + Half(height) > w
      invariant mn <= Candidate(text)
      invariant forall k :: mn < k <= Candidate(text) ==> !Fits(measure, text, k, w, height)
      decreases mn
    {
      if mn == 0 {
        return false, [];
      }
      mn := mn - 1;
    }
    buf := text[..mn];
    if mn < n {
      var i: int := EllipsisStart(mn);
      while i < mn
        invariant EllipsisStart(mn) <= i
        invariant i <= mn || i == EllipsisStart(mn)
        invariant |buf| == mn
        invariant forall j :: 0 <= j < mn ==> buf[j] == if EllipsisStart(mn) <= j < i then DOT else text[j]
        decreases mn - i
      {
        buf := buf[i := DOT];
        i := i + 1;
      }
      assert buf == Dotted(text[..mn], EllipsisStart(mn));
    }
    var chosen := LongestFit(measure, text, w, height, Candidate(text));
    assert Fits(measure, text, mn, w, height);
    assert chosen.Some? && chosen.value == mn;
    painted := true;
  }

  /** Text whose whole string fits (and fits the buffer) is drawn byte for byte. */
  lemma FullTextDrawnUnchanged(measure: Measure, text: seq<bv8>, w: int, height: int)
    requires StrLen(text) <= BUFSIZ
    requires Fits(measure, text, StrLen(text), w, height)
    ensures Fit(measure, text, w, height) == Some(text[..StrLen(text)])
  {
    var r := Fit(measure, text, w, height);
    assert r.Some?;
  }

  /**
   * With a measure that only grows as bytes are added, drawing is skipped
   * exactly when even the empty prefix is too wide.
   */
  lemma NoFitIffEmptyTooWide(measure: Measure, text: seq<bv8>, w: int, height: int)
    requires forall k, j :: 0 <= k <= j <= Candidate(text) ==> measure(text[..k]) <= measure(text[..j])
    ensures Fit(measure, text, w, height).None? <==> !Fits(measure, text, 0, w, height)
  {
    if !Fits(measure, text, 0, w, height) {
      forall k | 0 <= k <= Candidate(text)
        ensures !Fits(measure, text, k, w, height)
      {
        assert measure(text[..0]) <= measure(text[..k]);
      }
    }
  }

  /** A shortened buffer holds no NUL byte, so `strlen` of it is its length. */
  lemma FittedIsNulFree(measure: Measure, text: seq<bv8>, w: int, height: int)
    requires Fit(measure, text, w, height).Some?
    ensures NulFree(Fit(measure, text, w, height).value)
  {
    var b := Fit(measure, text, w, height).value;
    var mn := |b|;
    forall i | 0 <= i < mn
      ensures b[i] != 0
    {
      if mn < StrLen(text) {
        assert b == Dotted(text[..mn], EllipsisStart(mn));
      }
    }
  }

  /**
   * Fitting is idempotent when the width depends only on the number of bytes
   * (a fixed-width font): fitting the drawn buffer again gives the same buffer.
   */
  lemma FitIdempotentForFixedWidth(measure: Measure, text: seq<bv8>, w: int, height: int)
    requires forall a: seq<bv8>, b: seq<bv8> :: |a| == |b| ==> measure(a) == measure(b)
    requires Fit(measure, text, w, height).Some?
    ensures Fit(measure, Fit(measure, text, w, height).value, w, height) == Fit(measure, text, w, height)
  {
    var b := Fit(measure, text, w, height).value;
    var mn := |b|;
    FittedIsNulFree(measure, text, w, height);
    assert StrLen(b) == mn;
    assert b[..mn] == b;
    assert measure(b[..mn]) == measure(text[..mn]);
    FullTextDrawnUnchanged(measure, b, w, height);
  }

  /** Six plain bytes, "abcdef". */
  const ABCDEF: seq<bv8> := [0x61, 0x62, 0x63, 0x64, 0x65, 0x66]

  /** A width that is one pixel per byte, but very wide once a dot appears. */
  function DotsAreWide(s: seq<bv8>): int {
    if DOT in s then 100 else |s|
  }

  /** Under `DotsAreWide`, "abcdef" at width 4 is cut to four bytes, the last three dots. */
  lemma FitOfPlainAtFour()
    ensures Fit(DotsAreWide, ABCDEF, 4, 0) == Some([0x61, DOT, DOT, DOT])
  {
    assert StrLen(ABCDEF) == 6;
    assert ABCDEF[..4] == [0x61, 0x62, 0x63, 0x64];
    assert ABCDEF[..5] == [0x61, 0x62, 0x63, 0x64, 0x65];
    assert ABCDEF[..6] == ABCDEF;
    assert DOT !in ABCDEF[..4] && DOT !in ABCDEF[..5] && DOT !in ABCDEF;
    assert Fits(DotsAreWide, ABCDEF, 4, 4, 0);
    assert !Fits(DotsAreWide, ABCDEF, 5, 4, 0);
    assert !Fits(DotsAreWide, ABCDEF, 6, 4, 0);
    var r := Fit(DotsAreWide, ABCDEF, 4, 0).value;
    assert |r| == 4 && 3 <= |r| < StrLen(ABCDEF);
    assert r[..1] == ABCDEF[..1] == [0x61];
    assert r[1..] == [DOT, DOT, DOT];
    assert r == r[..1] + r[1..] == [0x61, DOT, DOT, DOT];
  }

  /** Under `DotsAreWide`, "a..." at width 4 is cut to the single byte "a". */
  lemma FitOfDottedAtFour()
    ensures Fit(DotsAreWide, [0x61, DOT, DOT, DOT], 4, 0) == Some([0x61])
  {
    var a: seq<bv8> := [0x61, DOT, DOT, DOT];
    assert StrLen(a) == 4;
    assert a[..1] == [0x61];
    assert DOT !in a[..1];
    assert DOT in a[..2] && DOT in a[..3] && DOT in a[..4];
    assert Fits(DotsAreWide, a, 1, 4, 0);
    assert !Fits(DotsAreWide, a, 2, 4, 0);
    assert !Fits(DotsAreWide, a, 3, 4, 0);
    assert !Fits(DotsAreWide, a, 4, 4, 0);
  }

  /**
   * For a measure under which a dot is wider than the byte it replaces, fitting
   * the drawn buffer again shortens it further: "abcdef" at width 4 is drawn as
   * "a...", and "a..." at width 4 as "a".
   */
  lemma FitNotIdempotentInGeneral()
    ensures Fit(DotsAreWide, Fit(DotsAreWide, ABCDEF, 4, 0).value, 4, 0) != Fit(DotsAreWide, ABCDEF, 4, 0)
  {
    FitOfPlainAtFour();
    FitOfDottedAtFour();
  }

  /** A fixed-width measure: `advance` pixels per byte. */
  function FixedWidth(advance: int): Measure {
    (s: seq<bv8>) => advance * |s|
  }

  /** The low byte of each character: the bytes of an ASCII string. */
  function Ascii(s: string): (b: seq<bv8>)
    ensures |b| == |s|
  {
    seq(|s|, i requires 0 <= i < |s| => ((s[i] as int) % 256) as bv8)
  }

  /** The label of the long-menu-item scenario, 28 bytes. */
  const LONG_LABEL: string := "ThisIsAVeryLongMenuItemLabel"

  lemma LongLabelLength()
    ensures StrLen(Ascii(LONG_LABEL)) == 28
  {
    assert LONG_LABEL == ['T', 'h', 'i', 's', 'I', 's', 'A', 'V', 'e', 'r', 'y', 'L', 'o', 'n',
                          'g', 'M', 'e', 'n', 'u', 'I', 't', 'e', 'm', 'L', 'a', 'b', 'e', 'l'];
    forall i | 0 <= i < |LONG_LABEL|
      ensures Ascii(LONG_LABEL)[i] != 0
    {
      assert 65 <= LONG_LABEL[i] as int <= 122;
    }
    assert NulFree(Ascii(LONG_LABEL));
  }

  /**
   * A long menu label under a 6-pixel fixed-width font, line height 10, in a
   * 65-pixel context: 10 bytes fit, the first 7 are the label's ("ThisIsA")
   * and the last 3 are dots.
   */
  lemma LongLabelEndsInDots()
    ensures var r := Fit(FixedWidth(6), Ascii(LONG_LABEL), 65, 10);
      r.Some? && |r.value| == 10 && r.value[..7] == Ascii(LONG_LABEL)[..7] && r.value[7..] == [DOT, DOT, DOT]
  {
    var text := Ascii(LONG_LABEL);
    LongLabelLength();
    assert Candidate(text) == 28;
    assert Fits(FixedWidth(6), text, 10, 65, 10);
    var r := Fit(FixedWidth(6), text, 65, 10).value;
    assert Fits(FixedWidth(6), text, |r|, 65, 10);
    assert |r| == 10;
  }

  /** The evidently intended start of the dot run: three bytes back, but never before byte 0. */
  function ClampedEllipsisStart(mn: nat): (s: nat)
    ensures s <= mn && mn - s <= 3
    ensures mn >= 3 ==> s == mn - 3
    ensures mn < 3 ==> s == 0
  {
    if mn >= 3 then mn - 3 else 0
  }

  /**
   * `Fit` with the dot run started at `ClampedEllipsisStart`: it chooses the
   * same length, and every shortened buffer ends in dots, its last min(3, mn)
   * bytes being dots and the bytes before them the text's.
   */
  function FitClamped(measure: Measure, text: seq<bv8>, w: int, height: int): (r: Option<seq<bv8>>)
    ensures r.None? <==> Fit(measure, text, w, height).None?
    ensures r.Some? ==> |r.value| == |Fit(measure, text, w, height).value|
    ensures r.Some? && |r.value| == StrLen(text) ==> r.value == text[..|r.value|]
    ensures r.Some? && |r.value| < StrLen(text) ==>
      forall i :: 0 <= i < |r.value| ==> r.value[i] == if i + 3 < |r.value| then text[i] else DOT
  {
    match LongestFit(measure, text, w, height, Candidate(text))
    case None => None
    case Some(mn) =>
      if mn < StrLen(text) then Some(Dotted(text[..mn], ClampedEllipsisStart(mn)))
      else Some(text[..mn])
  }

  /**
   * The clamp changes nothing unless a label is cut to one or two bytes; such
   * a cut of a label not starting with a dot is drawn differently.
   */
  lemma ClampedDiffersOnlyOnShortCuts(measure: Measure, text: seq<bv8>, w: int, height: int)
    ensures var f := Fit(measure, text, w, height);
      !(f.Some? && 0 < |f.value| < 3 && |f.value| < StrLen(text)) ==> FitClamped(measure, text, w, height) == f
    ensures var f := Fit(measure, text, w, height);
      f.Some? && 0 < |f.value| < 3 && |f.value| < StrLen(text) && text[0] != DOT ==> FitClamped(measure, text, w, height) != f
  {
    var f := Fit(measure, text, w, height);
    var c := FitClamped(measure, text, w, height);
    if f.Some? && |f.value| < StrLen(text) {
      var mn := |f.value|;
      if 3 <= mn {
        assert c.value == Dotted(text[..mn], mn - 3);
        assert f.value == Dotted(text[..mn], EllipsisStart(mn));
      } else if 0 < mn {
        assert c.value[0] == DOT;
        assert f.value[0] == text[0];
      }
    }
  }

  /** One pixel per byte. */
  function ByteCount(s: seq<bv8>): int {
    |s|
  }

  /**
   * As written, cutting "abcdef" to two bytes draws "ab" with no dot at all,
   * because `mn-3` wraps around on `size_t`; with the clamp the buffer is "..".
   */
  lemma TwoByteTruncationDropsEllipsis()
    ensures Fit(ByteCount, ABCDEF, 2, 0) == Some([0x61, 0x62])
    ensures FitClamped(ByteCount, ABCDEF, 2, 0) == Some([DOT, DOT])
  {
    assert StrLen(ABCDEF) == 6;
    assert Fits(ByteCount, ABCDEF, 2, 2, 0);
    var r := Fit(ByteCount, ABCDEF, 2, 0).value;
    assert |r| == 2;
    assert ABCDEF[..2] == [0x61, 0x62];
    var c := FitClamped(ByteCount, ABCDEF, 2, 0).value;
    assert |c| == 2;
    assert c[0] == DOT && c[1] == DOT;
    assert c == [DOT, DOT];
  }
}

=== FILE: wrappers.dfy ===
/** Failure-carrying values used throughout the model. */
module Wrappers {

  /** A value that may be absent; also stands for a nullable C pointer or handle. */
  datatype Option<+T> = None | Some(value: T)

  /** The outcome of an operation that may end the process through `eprintf`. */
  datatype Result<+T, +E> = Ok(value: T) | Err(error: E)
}
